=== FILE: README.md ===
# Speech-to-text nodes for Node-RED, modelled in Dafny

This project models the repository's own logic in the two Node-RED nodes of
`node-red-contrib-deepspeech-stt`:

- the **streaming node** (`deepspeech-stream.js`). It is a controller that
  owns at most one native decode stream. Audio buffers are fed into the
  stream. The stream is finalized by `"stop_result"` or by an inactivity
  timer, dropped by `"stop"`, and peeked at by `"intermediate"`;
- the **file node** (`deepspeech-wav.js`). Each message carries a whole WAV
  buffer. The node checks the buffer's format and transcribes it in one call;

plus what both nodes share:

- start-up validation: the file-existence checks, the timeout,
  beam-width and alpha/beta texts, and the construction of the decoder;
- the permanent `errorStop` gate that a fatal start-up failure closes;
- the hotword registry.

Every handler is a pure function from a node state and an input to a new
state and an ordered **trace** of effects. The trace holds native decoder
calls, timer operations, sent transcripts, warnings and logged errors. The
inactivity timer is an explicit `TimerFires` event.

The outside world is given as parameters:

- the native speech engine is an `Engine` record. A `None`/`false`
  answer from one of its fields means the native call threw:
  - `intermediate`, `finish` and `freeStream` act on the sequence of
    chunks fed into the stream so far;
  - `stt` acts on one whole buffer;
  - `freeModel` and `clearHotWords` are plain answers;
  - `addHotWord` answers for a given word and boost;
- a native call that throws during start-up is a predicate `throws` on calls;
- `fs.existsSync` is a predicate `present` on paths;
- the WAV metadata probe is a function from buffers to a `Probe` record.

Modules:

- `Base` (`base.dfy`): the vocabulary of payloads, effects and the engine, trace helpers, and the shared model teardown.
- `Numerals` (`numerals.dfy`): the patterns `^[0-9]+$` and `^[0-9]+[\.]?[0-9]*$` and the decimal value of a digit string.
- `Hotwords` (`hotwords.dfy`): the registry.
- `Startup` (`startup.dfy`): the path checks, the decoder construction plan with its optional tuning, and how a throwing native call cuts the plan short.
- `Stream` (`stream.dfy`): the streaming node's state and its handlers.
- `StreamProperties` (`stream_properties.dfy`): properties of the streaming node over whole event sequences. These cover the invariant, the gate, the timer discipline, how audio accumulates, and end-to-end scenarios.
- `Wav` (`wav.dfy`): the file node, its format gate, and its properties.

Where the two nodes share code, the shared module is cited by the lines of
the streaming node. The file node's copy of that code is identical apart
from the timeout check and the warning texts. Its hotword summary lists
each word without its boost (`deepspeech-wav.js:149` against
`deepspeech-stream.js:158`), and its "ignored" warning is worded
differently (`deepspeech-wav.js:158` against `deepspeech-stream.js:218`).
Warnings are modelled as kinds, so these texts do not show in the model.

Choices that follow the code:

- **Alpha in both places.** Alpha/beta tuning passes the alpha value as
  both arguments. This is preserved as written.
- **Extra warning after control strings.** The streaming node's generic
  "ignored" warning (`deepspeech-stream.js:218`) follows *every* string
  payload, including the three control words. This is modelled as written.
- **A failed "stop" keeps the stream.** When freeing the stream throws on
  `"stop"`, the code logs the error and keeps the stream reference. The
  model does the same. A design that always returns to "no stream" would
  differ here.

## Model

| member | source | states |
|---|---|---|
| Numerals.ValueOfRender | deepspeech-stream.js:105 | parsing a rendered number gives it back: every non-negative timeout has a text the node accepts and parses to that value |
| Numerals.ValueZeroIffZeros | deepspeech-stream.js:105 | a digit text parses to 0 exactly when it consists of zeros only |
| Numerals.LeadingDigits | deepspeech-stream.js:118 | the scanner behind the decimal pattern returns the length of the longest all-digit prefix |
| Numerals.IsDecimalIffShape | deepspeech-stream.js:118 | the one-scan decision accepts exactly the texts of the shape digits, optional dot, digits, with at least one leading digit |
| Numerals.DecimalHasShape | deepspeech-stream.js:118 | every text the decimal scan accepts has the shape digits, optional dot, digits |
| Numerals.ShapeIsDecimal | deepspeech-stream.js:118 | every text of that shape is accepted by the decimal scan |
| Numerals.LeadingDigitsAt | deepspeech-stream.js:118 | the scan's leading run of digits ends exactly at the first non-digit |
| Hotwords.Absorb | deepspeech-stream.js:154-160 | the entries a list adds are well-formed, taken from the list, and carry words that were not tracked before |
| Hotwords.AbsorbDistinct | deepspeech-stream.js:154-157 | no word is added twice, even when the list repeats it |
| Hotwords.AbsorbAvoids | deepspeech-stream.js:155 | a word that is already tracked is never added again |
| Hotwords.AbsorbComplete | deepspeech-stream.js:154-157 | every well-formed word of the list ends up either already tracked or added |
| Hotwords.AbsorbedWordsListed | deepspeech-stream.js:154-157 | every added word is the word of a well-formed entry of the list |
| Hotwords.AbsorbKeepsNoDups | deepspeech-stream.js:154-157 | a duplicate-free registry stays duplicate-free after the new words are appended |
| Hotwords.Apply | deepspeech-stream.js:147-163 | an empty list clears the model's hotwords and the registry, unless `clearHotWords` throws: then the registry is kept and the handler ends with an uncaught error and no warning. A list whose first element is malformed changes nothing. The registry never gains a duplicate, and only hotword calls, warnings and that uncaught error occur |
| Hotwords.AddEach | deepspeech-stream.js:154-160 | the loop keeps the old words as a prefix, tracks one new word per successful call plus at most one refused call, keeps the registry free of duplicates, and makes only `addHotWord` calls |
| Hotwords.AddEachAbsorbs | deepspeech-stream.js:154-157 | the loop is cut short exactly when the model refuses one of the new words. When it refuses none, the loop tracks exactly the absorbed words and makes one call per absorbed entry, in order |
| Hotwords.AddEachAligns | deepspeech-stream.js:156-157 | the k-th new tracked word is the word of the k-th `addHotWord` call |
| Hotwords.AddEachRefusedLast | deepspeech-stream.js:156-157 | when the loop is cut short, its last call is the refused one and that word is not tracked |
| Hotwords.AddEachListed | deepspeech-stream.js:155-157 | every call is for an untracked word with a boost from a list entry, and every tracked word was tracked before or is a word of the list |
| Hotwords.ApplyTracks | deepspeech-stream.js:152-160 | a well-formed list tracks only old words and words of the list. When the model takes every new word, a word ends up tracked exactly when it was tracked or appears in a well-formed entry |
| Hotwords.ApplyAppends | deepspeech-stream.js:154-162 | new words are appended after the old ones, with one `addHotWord` per new word in order. When the model takes every word, the closing warning names exactly the new words. Otherwise the last call is the refused word, that word is not tracked, and the handler ends with an uncaught error instead of the warning |
| Hotwords.ApplyAddsOnlyNew | deepspeech-stream.js:154-157 | a word is handed to the model only if it was untracked, and with the boost of an entry of the list for that word |
| Hotwords.AbsorbExtends | deepspeech-stream.js:155-157 | appending the absorbed words gives set union with the list's words and preserves freedom from duplicates |
| Hotwords.ApplyTwice | deepspeech-stream.js:155 | once the model has taken every word of a list, delivering the same list again changes nothing and makes no `addHotWord` call |
| Hotwords.NothingNew | deepspeech-stream.js:155 | a list whose words are all tracked absorbs nothing |
| Startup.PathErrors | deepspeech-stream.js:90-99 | a missing model is always an error. A missing scorer is an error unless the scorer is disabled, and disabling counts only while the advanced section is shown. There are no errors exactly when both checks pass |
| Startup.ScorerCalls | deepspeech-stream.js:110 | the scorer is attached exactly when it is not disabled |
| Startup.BeamCalls | deepspeech-stream.js:112-116 | the beam width is set, to the parsed value, exactly when it is enabled and its text is a non-empty digit string; otherwise the node warns |
| Startup.AlphaBetaCalls | deepspeech-stream.js:117-123 | alpha/beta is considered only when enabled with a scorer. It is applied exactly when both texts are decimals, and then with the alpha text in both positions; otherwise the node warns |
| Startup.Plan | deepspeech-stream.js:109-124 | construction loads the model first and never again, and issues only native calls and warnings |
| Startup.PlanTuning | deepspeech-stream.js:110-123 | each tuning call is in the plan if and only if its condition holds, with exactly the validated arguments |
| Startup.FirstThrow | deepspeech-stream.js:108-129 | the point where construction is cut short: every call before it completes, and the call there, if any, is a native call that throws |
| Startup.Construct | deepspeech-stream.js:108-129 | construction fails exactly when some native call of the plan throws. It then stops at the first such call and logs a decoder error; otherwise every call of the plan is made |
| Startup.BootDecoder | deepspeech-stream.js:107-133 | the node stops if and only if an earlier check failed or a construction call threw. After a failed check, no native call is made and the "needs valid paths" error follows. The model counts as loaded exactly when loading did not throw. Tuning occurs only from valid texts, and on success exactly when they are valid |
| Base.ReleaseModel | deepspeech-stream.js:255-262 | the model is freed once if loaded and never otherwise, and no other native call is made; a failing free is logged and keeps the handle |
| Stream.Start | deepspeech-stream.js:90-133 | the node stops exactly when the model or an enabled scorer is missing, the timeout text is not a digit string, or construction throws. The model is held exactly when both files exist, the timeout is a digit string and constructing the model does not throw. An accepted timeout is stored as its parsed value, and the start state satisfies the invariant |
| Stream.Feed | deepspeech-stream.js:220-231 | the buffer is appended to the fed audio. A stream is created only when none existed. The timer is armed unless the timeout is 0: setting it is the last effect, and a pending timer is cleared immediately before. Nothing is sent |
| Stream.FeedTrace | deepspeech-stream.js:220-231 | the effects of a buffer are the optional stream creation, the feed, then the timer effects. A new timer is set last and exactly when the timeout is not 0; a pending timer is cleared just before it. No message or error is among them |
| Stream.FeedCalls | deepspeech-stream.js:222-227 | the only native calls of a buffer are `createStream` when there is no stream, then exactly one `feedAudioContent` of that buffer |
| Stream.Rearm | deepspeech-stream.js:73-78 | an armed rearm ends by setting a new timer and cancels a pending one first; an unarmed one, the timeout-0 case, touches no timer |
| Stream.Stop | deepspeech-stream.js:168-183 | with no stream the node only warns. Otherwise the timer is cancelled and the stream freed by exactly one native call and no other, returning to no stream exactly when the free succeeds; a failing free is logged and keeps the stream. Nothing is sent |
| Stream.Finalize | deepspeech-stream.js:186-200 | exactly one native call, `finishStream`. A successful finalize sends exactly the final transcript of the fed audio and ends the stream; a throwing finalize sends nothing, logs an error and keeps the stream |
| Stream.StopResult | deepspeech-stream.js:185-204 | with no stream the node only warns. Otherwise the pending timer is cleared first, then the stream is finalized with the outcome of `Finalize`, by exactly one `finishStream` and no other native call |
| Stream.Intermediate | deepspeech-stream.js:206-215 | the node state is untouched. With a stream, the only native call is one `intermediateDecode`, so nothing finishes or frees the stream, and exactly one partial transcript of everything fed is sent; without one, only a warning. No timer operation occurs |
| Stream.ControlEffects | deepspeech-stream.js:166-218 | every string ends with the generic "ignored" warning. Other strings do only that. `"intermediate"` keeps the node, `"stop"` sends nothing, and `"stop_result"` on a stream sends the final transcript and leaves no stream and no timer |
| Stream.Input | deepspeech-stream.js:135-237 | a stopped node only warns. A hotword list changes only the registry and sends nothing. Other payloads only warn. Buffers are fed, and strings go to the control words |
| Stream.Fire | deepspeech-stream.js:78-87 | with a pending timer on a stream, the stream is finalized by exactly one `finishStream` and no other native call, and the timer is no longer pending. On success the final transcript is sent and the stream ends. When the finish throws, the error is logged, the stream is kept and nothing is sent. Only the stream and the timer flag change. Without a pending timer on a stream nothing happens |
| Stream.ReleaseStream | deepspeech-stream.js:247-254 | a stream present at teardown is freed once, with no other native call; it is gone exactly when the free succeeds |
| Stream.Close | deepspeech-stream.js:239-263 | a pending timer is cancelled first and no timer is set. The only native calls are the stream's free, if there is a stream, followed by the model's, if loaded. The stream is gone exactly when there was none or its free succeeded, and the model stays loaded exactly when it was loaded and its free failed. Nothing is sent |
| Stream.TeardownTrace | deepspeech-stream.js:243-262 | a cancel followed by the two releases sends nothing, holds no timer operation but the leading cancel, and keeps the releases' native calls in order |
| Stream.CloseReleasesOnce | deepspeech-stream.js:243-262 | teardown frees the stream exactly once if present and the model exactly once if loaded |
| Base.ReleaseCounts | deepspeech-stream.js:247-262 | a trace whose native calls are an optional stream free then an optional model free makes each free exactly that often |
| StreamProperties.InputKeepsValid | deepspeech-stream.js:135-237 | every message preserves the invariant. A pending timer implies a stream and a non-zero timeout. A stopped node has neither. A running node has its model and a timeout, and the registry has no duplicates |
| StreamProperties.RunKeepsValid | deepspeech-stream.js:135-237 | the invariant holds after any sequence of messages and timer firings |
| StreamProperties.StoppedNodeOnlyWarns | deepspeech-stream.js:137-141 | a node stopped at start-up stays exactly as it is whatever arrives, and only warns |
| StreamProperties.ReplayRearm | deepspeech-stream.js:73-78 | rearming clears the held timer before setting the next, so one timer is live afterwards and never two |
| StreamProperties.FeedTimers | deepspeech-stream.js:227-230 | a buffer never makes two timers live, and afterwards the live timers match the pending flag |
| StreamProperties.StopTimers | deepspeech-stream.js:171-176 | `"stop"` leaves no timer live and never two |
| StreamProperties.CloseTimers | deepspeech-stream.js:243-246 | teardown leaves no timer live and never makes two live |
| StreamProperties.ReplayTeardown | deepspeech-stream.js:243-246 | a trace whose only timer operation is a leading cancel of the pending timer ends with none live |
| StreamProperties.StopResultTimers | deepspeech-stream.js:188-191 | `"stop_result"` leaves no timer live and never two |
| StreamProperties.ControlTimers | deepspeech-stream.js:166-218 | a string payload keeps at most one timer live, and the live count matches the pending flag afterwards |
| StreamProperties.InputTimers | deepspeech-stream.js:135-237 | for every message from a valid state, at most one timer is ever live and the live count matches the pending flag afterwards |
| StreamProperties.FireConsumesTimer | deepspeech-stream.js:78-87 | firing uses up the pending timer and arms no other |
| StreamProperties.StopArmsNothing | deepspeech-stream.js:168-183 | `"stop"` never schedules a timer |
| StreamProperties.StopResultArmsNothing | deepspeech-stream.js:185-204 | `"stop_result"` never schedules a timer |
| StreamProperties.ControlArmsNothing | deepspeech-stream.js:166-216 | a control word never schedules a timer |
| StreamProperties.ZeroTimeoutNeverArms | deepspeech-stream.js:228-230 | with timeout 0 no timer is ever armed, over any sequence of events |
| StreamProperties.ZeroTextDisablesFinalize | deepspeech-stream.js:100-106 | an accepted timeout text disables auto-finalizing exactly when it is all zeros |
| StreamProperties.ReplayFeedsAccumulate | deepspeech-stream.js:222-227 | for any handler that treats audio on a running node as a feed, a run of chunks is appended, in order, to the stream's audio, and the node keeps running |
| StreamProperties.ReplayFeedsQuiet | deepspeech-stream.js:220-231 | for any such handler, a run of chunks sends no message |
| StreamProperties.FeedsAccumulate | deepspeech-stream.js:222-227 | feeding chunks appends them, in order, to the stream's audio and creates the stream if needed |
| StreamProperties.FeedsSendNothing | deepspeech-stream.js:220-231 | feeding audio never sends a message |
| StreamProperties.FeedThenPeek | deepspeech-stream.js:206-211 | feeding chunks and peeking sends the partial transcript of exactly those chunks and keeps the stream open |
| StreamProperties.FeedThenFinish | deepspeech-stream.js:185-197 | feeding more chunks into a stream and then asking for the result sends the final transcript of all the audio and leaves no stream and no timer |
| StreamProperties.FeedPeekFeedFinish | deepspeech-stream.js:185-215 | feed A, feed B, `"intermediate"`, feed C, `"stop_result"` sends exactly the partial transcript of A+B and then the final transcript of A+B+C, ending with no stream and no timer |
| StreamProperties.FeedOpens | deepspeech-stream.js:220-231 | the first buffer on a node with no stream opens a stream holding just that buffer and arms the timer. Nothing is sent |
| StreamProperties.TimeoutFinalizes | deepspeech-stream.js:78-87 | feed A and let the timer fire: exactly one transcript, the final one of A, is sent without any `"stop_result"`, and the node ends with no stream |
| StreamProperties.IdleControlOnlyWarns | deepspeech-stream.js:180-218 | the three control words with no stream only warn, send nothing and leave the node unchanged |
| StreamProperties.CloseTwiceFreesOnce | deepspeech-stream.js:239-263 | after a clean teardown a second teardown frees neither stream nor model |
| Wav.Start | deepspeech-wav.js:85-121 | the node stops exactly when the model or an enabled scorer is missing or construction throws; a missing file means no native call at all. The model is held exactly when both files exist and constructing the model does not throw |
| Wav.Gate | deepspeech-wav.js:162-183 | a buffer passes exactly when it is readable, 16-bit, 16000 Hz and mono, and then yields the probe's duration |
| Wav.GateReportsFirstViolation | deepspeech-wav.js:163-183 | the gate reports the first broken requirement in the order bits, rate, channels, and passes exactly when none is broken |
| Wav.Transcribe | deepspeech-wav.js:162-194 | `stt` is called exactly when every check passes, and the one result carries the text and the probe's duration; otherwise only the first violation is logged |
| Wav.Input | deepspeech-wav.js:123-216 | a stopped node only warns. Only a hotword list changes the node, and only its registry. Other non-buffers only warn. A buffer sends one transcript exactly when its format passes |
| Wav.Close | deepspeech-wav.js:218-230 | the model is freed once if loaded, by the only native call of the teardown, and stays loaded exactly when that free fails; nothing else changes and nothing is sent |
| Wav.CloseDecodesNothing | deepspeech-wav.js:218-230 | teardown makes no `stt` call, before or after the free |
| Wav.RunKeepsValid | deepspeech-wav.js:123-216 | a running node keeps its model and a duplicate-free registry over any message sequence |
| Wav.StoppedNodeOnlyWarns | deepspeech-wav.js:125-129 | a stopped node stays as it is and only warns, whatever arrives |
| Wav.OneResultPerAcceptedBuffer | deepspeech-wav.js:185-194 | a running node sends exactly as many transcripts as there are buffers whose format passes |
| Wav.CloseTwiceFreesOnce | deepspeech-wav.js:222-229 | after a clean teardown, closing twice frees the model exactly once in total |

## Left out

- The status indicator, its 1500 ms auto-clear timer, and all log and warning texts. Warnings and errors are kept as enumerated kinds only.
- Node-RED registration, the configurable input and output property names, and `send`/`done` plumbing.
- Wall-clock time: the inactivity timer is an explicit event, and the 50 ms defer before `stt` is not modelled. The `inferenceDuration` field of the file node's result is left out because it reads the clock.
- Stream.Feed: a throw from `createStream` or `feedAudioContent` is not modelled. It escapes the handler uncaught, so the engine's feeding is taken to succeed.
- Stream.Intermediate: a throw from `intermediateDecode` is not modelled, for the same reason.
- Stream.Fire: a throwing `finishStream` in the timer callback escapes uncaught. It is modelled as a logged error that keeps the stream and leaves no timer pending. The code instead keeps the expired handle, so the next buffer issues a redundant `clearTimeout`, which the model omits.
- Wav.Transcribe: a throw from `stt` is not modelled. It happens inside a deferred callback that the surrounding `try` does not guard.
- Wav.Transcribe: the out-of-scope `done` at `deepspeech-wav.js:75` makes an unreadable buffer's error surface through the outer `catch`. The model keeps only the net effect: one logged error and no `stt` call. The early `done()` at line 213 is message plumbing and is left out.
- Wav.Gate: a probe that lacks a format field is represented by any value other than the required one. The comparisons are strict inequalities, so a missing field fails its check the same way.
- Startup.AlphaBetaCalls: the alpha text is passed instead of its `Number` conversion, since floating point is not modelled. The validation is modelled exactly.
- Startup.BeamCalls: `Number` and `parseInt` lose precision above 2^53. The model parses digit texts into unbounded naturals.
- Hotwords.ApplyTwice: holds only when the model took every word of the first delivery. The engine is deterministic here, so a word it refused once is refused, and offered, again.
- Hotwords.Apply: a throwing hotword call is modelled as ending the handler with the registry as it stood. What the throw does to the native model's own hotword state is not modelled.
- Wav.Input: one message is modelled as one atomic step, but the code runs the format gate in a later `.then` (`deepspeech-wav.js:162`) and `stt` in a 50 ms timer (`deepspeech-wav.js:187-194`), after `done()` at line 213. A later message, or a teardown, can act before the buffer's transcription. A teardown in that window frees the model and sets the decoder to `null` (`deepspeech-wav.js:222-228`) without cancelling the timer, so the pending callback reads `stt` of `null` (`deepspeech-wav.js:188`) and throws. Neither interleaving is modelled.
- A hotword list element is either a well-formed entry or malformed. The JavaScript type checks (`typeof`, `hasOwnProperty`) are collapsed into that distinction. A `null` element, on which `hasOwnProperty` throws, is not modelled.

=== FILE: base.dfy ===
/** Shared vocabulary of the two speech-to-text nodes: the payloads a node
    receives, the effects it produces (native decoder calls, timer operations,
    sent messages, warnings and errors) and the native engine, which is an
    abstract capability given as a record of functions over the audio fed so far.
 */
module Base {

  datatype Option<+T> = None | Some(value: T)

  datatype Result<+T, +E> = Success(value: T) | Failure(error: E)

  newtype byte = x: int | 0 <= x < 256

  /** A raw PCM buffer as delivered in one message. */
  type Chunk = seq<byte>

  /** One element of a hotword list: an object carrying both `word` and
      `boost`, or anything else. */
  datatype Item = Entry(word: string, boost: real) | Malformed

  /** The value found at the node's input property. */
  datatype Payload =
    | Audio(chunk: Chunk)
    | List(items: seq<Item>)
    | Text(text: string)
    | Other

  /** The object written to the output property of a sent message. */
  datatype Transcript = Transcript(text: string, audioDuration: Option<real>)

  datatype Warning =
    | NotSetUp
    | HotwordsCleared
    | HotwordsAdded(words: seq<string>)
    | NoInference
    | PayloadIgnored
    | BeamWidthIgnored
    | AlphaBetaIgnored

  datatype Fault =
    | ModelMissing
    | ScorerMissing
    | BadTimeout
    | NeedsValidPaths
    | DecoderError
    | StreamCleanup
    | ModelCleanup
    | Uncaught
    | ProbeFailed
    | Not16Bit
    | Not16kHz
    | NotMono

  /** Everything a node does that is visible outside its own state, in order. */
  datatype Effect =
    // native decoder calls
    | LoadModel(path: string)
    | EnableScorer(path: string)
    | SetBeamWidth(width: nat)
    | SetAlphaBeta(alpha: string, beta: string)
    | ClearHotWords
    | AddHotWord(word: string, boost: real)
    | CreateStream
    | FeedAudio(chunk: Chunk)
    | IntermediateDecode
    | FinishStream
    | FreeStream
    | Stt(buffer: Chunk)
    | FreeModel
    // the inactivity timer
    | ClearTimer
    | SetTimer
    // messages, warnings and logged errors
    | Send(result: Transcript)
    | Warn(warning: Warning)
    | Error(fault: Fault)

  predicate IsNative(e: Effect) {
    !(e.ClearTimer? || e.SetTimer? || e.Send? || e.Warn? || e.Error?)
  }

  /** The native decoder calls of a trace, in order, with the timer
      operations, messages, warnings and errors left out. */
  function Natives(trace: seq<Effect>): (r: seq<Effect>)
    ensures |r| <= |trace|
  {
    if trace == [] then []
    else (if IsNative(trace[0]) then [trace[0]] else []) + Natives(trace[1..])
  }

  /** The projection keeps exactly the native calls of the trace. */
  lemma {:induction false} NativesMembers(trace: seq<Effect>)
    ensures forall e | e in Natives(trace) :: IsNative(e) && e in trace
    ensures forall e | e in trace && IsNative(e) :: e in Natives(trace)
  {
    if trace != [] {
      NativesMembers(trace[1..]);
      assert forall e | e in trace :: e == trace[0] || e in trace[1..];
    }
  }

  lemma {:induction false} NativesAppend(a: seq<Effect>, b: seq<Effect>)
    ensures Natives(a + b) == Natives(a) + Natives(b)
  {
    if a == [] {
      assert a + b == b;
    } else {
      var head := if IsNative(a[0]) then [a[0]] else [];
      assert (a + b)[0] == a[0];
      assert (a + b)[1..] == a[1..] + b;
      NativesAppend(a[1..], b);
      assert head + (Natives(a[1..]) + Natives(b)) == (head + Natives(a[1..])) + Natives(b);
    }
  }

  lemma NativesOne(e: Effect)
    ensures Natives([e]) == if IsNative(e) then [e] else []
  {
    assert [e][1..] == [];
  }

  /** The native calls of a call followed by non-native effects, and of
      non-native effects alone. */
  lemma NativesThen(e: Effect, after: seq<Effect>)
    requires IsNative(e)
    requires forall i | 0 <= i < |after| :: !IsNative(after[i])
    ensures Natives([e] + after) == [e]
  {
    NativesAppend([e], after);
    NativesOne(e);
    NativesFree(after);
  }

  lemma {:induction false} NativesFree(trace: seq<Effect>)
    requires forall i | 0 <= i < |trace| :: !IsNative(trace[i])
    ensures Natives(trace) == []
  {
    if trace != [] {
      NativesFree(trace[1..]);
    }
  }

  /** A native call occurs in the projection as often as in the trace. */
  lemma {:induction false} CountNatives(e: Effect, trace: seq<Effect>)
    requires IsNative(e)
    ensures Count(e, Natives(trace)) == Count(e, trace)
  {
    if trace != [] {
      var head := if IsNative(trace[0]) then [trace[0]] else [];
      CountNatives(e, trace[1..]);
      CountAppend(e, head, Natives(trace[1..]));
      if head != [] {
        assert head[1..] == [];
      }
    }
  }

  /** A trace whose only native calls free the stream and then the model,
      each optionally, frees each exactly that often. */
  lemma ReleaseCounts(trace: seq<Effect>, stream: bool, model: bool)
    requires Natives(trace) == (if stream then [FreeStream] else []) + (if model then [FreeModel] else [])
    ensures Count(FreeStream, trace) == if stream then 1 else 0
    ensures Count(FreeModel, trace) == if model then 1 else 0
  {
    var s := if stream then [FreeStream] else [];
    var m := if model then [FreeModel] else [];
    CountNatives(FreeStream, trace);
    CountNatives(FreeModel, trace);
    CountAppend(FreeStream, s, m);
    CountAppend(FreeModel, s, m);
    assert [FreeStream][1..] == [] && [FreeModel][1..] == [];
  }

  /** Effects that call nothing natively, in front of two parts, leave the
      native calls of the parts in order. */
  lemma NativesAfter(quiet: seq<Effect>, a: seq<Effect>, b: seq<Effect>)
    requires forall i | 0 <= i < |quiet| :: !IsNative(quiet[i])
    ensures Natives(quiet + (a + b)) == Natives(a) + Natives(b)
  {
    NativesAppend(quiet, a + b);
    NativesAppend(a, b);
    NativesFree(quiet);
    assert [] + Natives(a + b) == Natives(a + b);
  }

  /** A trace that only warns: no decoder call, no timer, no message, no error. */
  predicate OnlyWarnings(trace: seq<Effect>) {
    forall i | 0 <= i < |trace| :: trace[i].Warn?
  }

  /** The native speech engine. Each operation on a stream sees the whole
      sequence of chunks fed into it; a `None` or `false` answer means the
      native call threw. The hotword calls answer whether clearing, or adding
      a word with a boost, goes through. */
  datatype Engine = Engine(
    intermediate: seq<Chunk> -> string,
    finish: seq<Chunk> -> Option<string>,
    freeStream: seq<Chunk> -> bool,
    freeModel: bool,
    stt: Chunk -> string,
    clearHotWords: bool,
    addHotWord: (string, real) -> bool)

  /** The transcripts sent by a trace, in order. */
  function Sends(trace: seq<Effect>): (r: seq<Transcript>)
    ensures |r| <= |trace|
    ensures forall t | t in r :: Send(t) in trace
  {
    if trace == [] then []
    else (if trace[0].Send? then [trace[0].result] else []) + Sends(trace[1..])
  }

  lemma {:induction false} SendsAppend(a: seq<Effect>, b: seq<Effect>)
    ensures Sends(a + b) == Sends(a) + Sends(b)
  {
    if a == [] {
      assert a + b == b;
    } else {
      var head := if a[0].Send? then [a[0].result] else [];
      assert (a + b)[0] == a[0];
      assert (a + b)[1..] == a[1..] + b;
      assert Sends(a + b) == head + Sends(a[1..] + b);
      SendsAppend(a[1..], b);
      assert Sends(a) == head + Sends(a[1..]);
      assert head + (Sends(a[1..]) + Sends(b)) == (head + Sends(a[1..])) + Sends(b);
    }
  }

  lemma {:induction false} SendsOfSendFree(trace: seq<Effect>)
    requires forall i | 0 <= i < |trace| :: !trace[i].Send?
    ensures Sends(trace) == []
  {
    if trace != [] {
      SendsOfSendFree(trace[1..]);
    }
  }

  /** How many times `e` occurs in a trace. */
  function Count(e: Effect, trace: seq<Effect>): (k: nat)
    ensures k <= |trace|
    ensures k == 0 <==> e !in trace
  {
    if trace == [] then 0 else (if trace[0] == e then 1 else 0) + Count(e, trace[1..])
  }

  lemma {:induction false} CountAppend(e: Effect, a: seq<Effect>, b: seq<Effect>)
    ensures Count(e, a + b) == Count(e, a) + Count(e, b)
  {
    if a == [] {
      assert a + b == b;
    } else {
      assert (a + b)[1..] == a[1..] + b;
      CountAppend(e, a[1..], b);
    }
  }

  /** Teardown of the model handle, shared by both nodes: the model is freed
      only if it is present, and a failing free is logged and keeps it. */
  function ReleaseModel(loaded: bool, freeOk: bool): (r: (bool, seq<Effect>))
    ensures !loaded ==> r == (false, [])
    ensures loaded ==> |r.1| > 0 && r.1[0] == FreeModel && (r.0 <==> !freeOk)
    ensures loaded && !freeOk ==> Error(ModelCleanup) in r.1
    ensures Count(FreeModel, r.1) == if loaded then 1 else 0
    ensures Natives(r.1) == if loaded then [FreeModel] else []
    ensures forall i | 0 <= i < |r.1| :: r.1[i] == FreeModel || r.1[i].Error?
  {
    if !loaded then (false, [])
    else if freeOk then NativesOne(FreeModel); (false, [FreeModel])
    else NativesThen(FreeModel, [Error(ModelCleanup)]); (true, [FreeModel, Error(ModelCleanup)])
  }
}

=== FILE: hotwords.dfy ===
/** The hotword registry both nodes keep: the list of words already applied to
    the native model. An empty list clears it; a list whose first element is a
    well-formed entry applies every well-formed entry whose word is not yet
    tracked, so the tracked list never holds a word twice.
 */
module Hotwords {
  import opened Base

  predicate NoDups(ws: seq<string>) {
    forall i, j | 0 <= i < j < |ws| :: ws[i] != ws[j]
  }

  predicate AllEntries(items: seq<Item>) {
    forall i | 0 <= i < |items| :: items[i].Entry?
  }

  /** No two entries carry the same word. */
  predicate DistinctWords(entries: seq<Item>)
    requires AllEntries(entries)
  {
    forall i, j | 0 <= i < j < |entries| :: entries[i].word != entries[j].word
  }

  /** The words of the well-formed entries of `items`, in order. */
  function Words(items: seq<Item>): (ws: seq<string>)
    ensures |ws| <= |items|
    ensures AllEntries(items) ==> |ws| == |items| && forall i | 0 <= i < |items| :: ws[i] == items[i].word
    ensures forall w | w in ws :: Entry(w, Boost(items, w)) in items
    ensures forall i | 0 <= i < |items| && items[i].Entry? :: items[i].word in ws
  {
    if items == [] then []
    else
      var rest := Words(items[1..]);
      if items[0].Entry? then [items[0].word] + rest else rest
  }

  /** The boost of the first entry for `w`, a witness for `Words`. */
  function Boost(items: seq<Item>, w: string): (b: real)
  {
    if items == [] then 0.0
    else if items[0].Entry? && items[0].word == w then items[0].boost
    else Boost(items[1..], w)
  }

  /** The entries a non-empty hotword list applies, given the words tracked
      before it: each well-formed entry is taken when its word is neither
      tracked nor taken earlier in the same list. */
  function Absorb(tracked: seq<string>, items: seq<Item>): (added: seq<Item>)
    ensures AllEntries(added)
    ensures forall it | it in added :: it in items && it.word !in tracked
    decreases |items|
  {
    if items == [] then []
    else
      var head := items[0];
      if head.Entry? && head.word !in tracked then
        [head] + Absorb(tracked + [head.word], items[1..])
      else
        Absorb(tracked, items[1..])
  }

  /** No word is absorbed twice. */
  lemma {:induction false} AbsorbDistinct(tracked: seq<string>, items: seq<Item>)
    ensures DistinctWords(Absorb(tracked, items))
    decreases |items|
  {
    if items != [] {
      var head := items[0];
      if head.Entry? && head.word !in tracked {
        var rest := Absorb(tracked + [head.word], items[1..]);
        AbsorbDistinct(tracked + [head.word], items[1..]);
        AbsorbAvoids(tracked + [head.word], items[1..], head.word);
        DistinctCons(head, rest);
      } else {
        AbsorbDistinct(tracked, items[1..]);
      }
    }
  }

  lemma DistinctCons(head: Item, rest: seq<Item>)
    requires head.Entry? && AllEntries(rest) && DistinctWords(rest)
    requires forall k | 0 <= k < |rest| :: rest[k].word != head.word
    ensures AllEntries([head] + rest) && DistinctWords([head] + rest)
  {
    var all := [head] + rest;
    forall i, j | 0 <= i < j < |all|
      ensures all[i].word != all[j].word
    {
      assert all[j] == rest[j - 1];
      if i > 0 {
        assert all[i] == rest[i - 1];
      }
    }
  }

  /** A tracked word is never absorbed. */
  lemma AbsorbAvoids(tracked: seq<string>, items: seq<Item>, w: string)
    requires w in tracked
    ensures forall k | 0 <= k < |Absorb(tracked, items)| :: Absorb(tracked, items)[k].word != w
  {
    var added := Absorb(tracked, items);
    forall k | 0 <= k < |added| ensures added[k].word != w {
      assert added[k] in added;
    }
  }

  /** Every well-formed word of the list is tracked already or absorbed. */
  lemma {:induction false} AbsorbComplete(tracked: seq<string>, items: seq<Item>)
    ensures forall w | w in Words(items) :: w in tracked || w in Words(Absorb(tracked, items))
    decreases |items|
  {
    if items != [] {
      var head := items[0];
      var rest := Words(items[1..]);
      assert Words(items) == (if head.Entry? then [head.word] else []) + rest;
      if head.Entry? && head.word !in tracked {
        var t := tracked + [head.word];
        AbsorbComplete(t, items[1..]);
        var later := Absorb(t, items[1..]);
        assert Absorb(tracked, items) == [head] + later;
        assert Words([head] + later) == [head.word] + Words(later) by {
          assert ([head] + later)[1..] == later;
        }
      } else {
        AbsorbComplete(tracked, items[1..]);
      }
    }
  }

  function AddCalls(added: seq<Item>): (calls: seq<Effect>)
    requires AllEntries(added)
    ensures |calls| == |added|
    ensures forall i | 0 <= i < |added| :: calls[i] == AddHotWord(added[i].word, added[i].boost)
    ensures forall e | e in calls :: e.AddHotWord? && Entry(e.word, e.boost) in added
  {
    if added == [] then [] else [AddHotWord(added[0].word, added[0].boost)] + AddCalls(added[1..])
  }

  /** The model takes every one of these entries. */
  predicate AcceptsAll(accepts: (string, real) -> bool, added: seq<Item>)
    requires AllEntries(added)
  {
    forall i | 0 <= i < |added| :: accepts(added[i].word, added[i].boost)
  }

  /** Where the loop over a well-formed list ends: the tracked words, the
      `addHotWord` calls made, and whether the last call threw. */
  datatype Loop = Loop(tracked: seq<string>, calls: seq<Effect>, refused: bool)

  /** The loop over a well-formed list, one element at a time: an entry whose
      word is not yet tracked is handed to the model and, once the model takes
      it, tracked. The native call is not guarded, so the first one that throws
      ends the loop and the handler with it. */
  function AddEach(tracked: seq<string>, items: seq<Item>, accepts: (string, real) -> bool): (r: Loop)
    ensures |tracked| <= |r.tracked| && r.tracked[..|tracked|] == tracked
    ensures |r.calls| == |r.tracked| - |tracked| + (if r.refused then 1 else 0)
    ensures NoDups(tracked) ==> NoDups(r.tracked)
    ensures forall i | 0 <= i < |r.calls| :: r.calls[i].AddHotWord?
    decreases |items|
  {
    if items == [] then Loop(tracked, [], false)
    else
      var head := items[0];
      if head.Entry? && head.word !in tracked then
        if !accepts(head.word, head.boost) then Loop(tracked, [AddHotWord(head.word, head.boost)], true)
        else
          var rest := AddEach(tracked + [head.word], items[1..], accepts);
          assert (tracked + [head.word])[..|tracked|] == tracked;
          Loop(rest.tracked, [AddHotWord(head.word, head.boost)] + rest.calls, rest.refused)
      else AddEach(tracked, items[1..], accepts)
  }

  datatype Applied = Applied(tracked: seq<string>, trace: seq<Effect>)

  /** One hotword payload applied to the tracked list. The native hotword
      calls are not guarded: a throwing call ends the handler on the spot,
      so the list is not cleared, or keeps only the words added before the
      failing one, and no summary warning follows. */
  function Apply(tracked: seq<string>, items: seq<Item>, eng: Engine): (r: Applied)
    // an empty list clears the model's hotwords and the tracked list
    ensures items == [] && eng.clearHotWords ==> r == Applied([], [ClearHotWords, Warn(HotwordsCleared)])
    ensures items == [] && !eng.clearHotWords ==> r == Applied(tracked, [ClearHotWords, Error(Uncaught)])
    // a list whose first element is not a well-formed entry changes nothing
    ensures items != [] && !items[0].Entry? ==> r == Applied(tracked, [])
    // the list never holds a word twice
    ensures NoDups(tracked) ==> NoDups(r.tracked)
    // the registry never touches a stream, a timer or the output
    ensures forall i | 0 <= i < |r.trace| ::
      r.trace[i].ClearHotWords? || r.trace[i].AddHotWord? || r.trace[i].Warn? || r.trace[i] == Error(Uncaught)
  {
    if items == [] then
      if eng.clearHotWords then Applied([], [ClearHotWords, Warn(HotwordsCleared)])
      else Applied(tracked, [ClearHotWords, Error(Uncaught)])
    else if !items[0].Entry? then Applied(tracked, [])
    else
      var l := AddEach(tracked, items, eng.addHotWord);
      Applied(l.tracked, l.calls + [if l.refused then Error(Uncaught) else Warn(HotwordsAdded(l.tracked[|tracked|..]))])
  }

  /** When the model takes every word it is offered, the loop tracks exactly
      the absorbed words and makes one call per absorbed entry, in order; it
      is cut short exactly when the model refuses one of them. */
  lemma {:induction false} AddEachAbsorbs(tracked: seq<string>, items: seq<Item>, accepts: (string, real) -> bool)
    ensures AddEach(tracked, items, accepts).refused <==> !AcceptsAll(accepts, Absorb(tracked, items))
    ensures AcceptsAll(accepts, Absorb(tracked, items)) ==>
      AddEach(tracked, items, accepts) ==
        Loop(tracked + Words(Absorb(tracked, items)), AddCalls(Absorb(tracked, items)), false)
    decreases |items|
  {
    if items != [] {
      var head := items[0];
      if head.Entry? && head.word !in tracked {
        var t := tracked + [head.word];
        var later := Absorb(t, items[1..]);
        assert Absorb(tracked, items) == [head] + later;
        AddEachAbsorbs(t, items[1..], accepts);
        AcceptsCons(accepts, head, later);
        if accepts(head.word, head.boost) && AcceptsAll(accepts, later) {
          assert Words([head] + later) == [head.word] + Words(later) by {
            assert ([head] + later)[1..] == later;
          }
          assert AddCalls([head] + later) == [AddHotWord(head.word, head.boost)] + AddCalls(later) by {
            assert ([head] + later)[1..] == later;
          }
          AppendAssoc(tracked, head.word, Words(later));
        }
      } else {
        AddEachAbsorbs(tracked, items[1..], accepts);
      }
    }
  }

  lemma AcceptsCons(accepts: (string, real) -> bool, head: Item, later: seq<Item>)
    requires head.Entry? && AllEntries(later)
    ensures AllEntries([head] + later)
    ensures AcceptsAll(accepts, [head] + later) <==> accepts(head.word, head.boost) && AcceptsAll(accepts, later)
  {
    var all := [head] + later;
    forall i | 0 <= i < |all| ensures all[i].Entry? {
      if i > 0 { assert all[i] == later[i - 1]; }
    }
    if accepts(head.word, head.boost) && AcceptsAll(accepts, later) {
      forall i | 0 <= i < |all| ensures accepts(all[i].word, all[i].boost) {
        if i > 0 { assert all[i] == later[i - 1]; }
      }
    }
    if AcceptsAll(accepts, all) {
      assert all[0] == head;
      forall i | 0 <= i < |later| ensures accepts(later[i].word, later[i].boost) {
        assert later[i] == all[i + 1];
      }
    }
  }

  lemma AppendAssoc(a: seq<string>, x: string, b: seq<string>)
    ensures (a + [x]) + b == a + ([x] + b)
  {
    var l, r := (a + [x]) + b, a + ([x] + b);
    assert |l| == |r|;
    forall i | 0 <= i < |l| ensures l[i] == r[i] {
      if i < |a| {
        assert l[i] == a[i] == r[i];
      } else if i > |a| {
        assert l[i] == b[i - |a| - 1] == r[i];
      }
    }
  }

  /** The loop's calls line up with the words it tracks. */
  lemma {:induction false} AddEachAligns(tracked: seq<string>, items: seq<Item>, accepts: (string, real) -> bool)
    ensures forall i | |tracked| <= i < |AddEach(tracked, items, accepts).tracked| ::
      AddEach(tracked, items, accepts).calls[i - |tracked|].word == AddEach(tracked, items, accepts).tracked[i]
    decreases |items|
  {
    if items != [] {
      var head := items[0];
      if head.Entry? && head.word !in tracked {
        if accepts(head.word, head.boost) {
          var t := tracked + [head.word];
          AddEachAligns(t, items[1..], accepts);
          var rest := AddEach(t, items[1..], accepts);
          var r := AddEach(tracked, items, accepts);
          assert r.calls == [AddHotWord(head.word, head.boost)] + rest.calls;
          assert r.tracked == rest.tracked;
          forall i | |tracked| <= i < |r.tracked|
            ensures r.calls[i - |tracked|].word == r.tracked[i]
          {
            if i == |tracked| {
              assert rest.tracked[..|t|] == t;
              assert r.tracked[i] == rest.tracked[..|t|][i] == t[i] == head.word;
              assert r.calls[0] == AddHotWord(head.word, head.boost);
            } else {
              assert r.calls[i - |tracked|] == rest.calls[i - |t|];
            }
          }
        }
      } else {
        AddEachAligns(tracked, items[1..], accepts);
        assert AddEach(tracked, items, accepts) == AddEach(tracked, items[1..], accepts);
      }
    }
  }

  /** The loop's last call was refused, for a word it leaves untracked. */
  predicate RefusedLast(r: Loop, accepts: (string, real) -> bool) {
    && |r.calls| > 0
    && r.calls[|r.calls| - 1].AddHotWord?
    && !accepts(r.calls[|r.calls| - 1].word, r.calls[|r.calls| - 1].boost)
    && r.calls[|r.calls| - 1].word !in r.tracked
  }

  /** A refused call is the loop's last, for a word it leaves untracked. */
  lemma {:induction false} AddEachRefusedLast(tracked: seq<string>, items: seq<Item>, accepts: (string, real) -> bool)
    ensures AddEach(tracked, items, accepts).refused ==> RefusedLast(AddEach(tracked, items, accepts), accepts)
    decreases |items|
  {
    if items != [] {
      var head := items[0];
      if head.Entry? && head.word !in tracked {
        if accepts(head.word, head.boost) {
          var t := tracked + [head.word];
          AddEachRefusedLast(t, items[1..], accepts);
          var rest := AddEach(t, items[1..], accepts);
          assert AddEach(tracked, items, accepts).calls == [AddHotWord(head.word, head.boost)] + rest.calls;
        }
      } else {
        AddEachRefusedLast(tracked, items[1..], accepts);
      }
    }
  }

  /** The loop hands a word to the model only if it is not tracked, with the
      boost of one of the list's entries for it, and tracks only such words. */
  lemma {:induction false} AddEachListed(tracked: seq<string>, items: seq<Item>, accepts: (string, real) -> bool)
    ensures forall e | e in AddEach(tracked, items, accepts).calls :: e.word !in tracked && Entry(e.word, e.boost) in items
    ensures forall w | w in AddEach(tracked, items, accepts).tracked :: w in tracked || w in Words(items)
    decreases |items|
  {
    if items != [] {
      var head := items[0];
      assert forall it | it in items[1..] :: it in items;
      assert forall w | w in Words(items[1..]) :: w in Words(items);
      if head.Entry? && head.word !in tracked {
        if accepts(head.word, head.boost) {
          var t := tracked + [head.word];
          AddEachListed(t, items[1..], accepts);
          assert head in items;
        }
      } else {
        AddEachListed(tracked, items[1..], accepts);
      }
    }
  }

  /** A well-formed list adds only words of its well-formed entries, and when
      the model takes every new word, each of them ends up tracked. */
  lemma ApplyTracks(tracked: seq<string>, items: seq<Item>, eng: Engine)
    requires items != [] && items[0].Entry?
    ensures forall w | w in Apply(tracked, items, eng).tracked :: w in tracked || w in Words(items)
    ensures AcceptsAll(eng.addHotWord, Absorb(tracked, items)) ==>
      forall w :: w in Apply(tracked, items, eng).tracked <==> w in tracked || w in Words(items)
  {
    AddEachListed(tracked, items, eng.addHotWord);
    AddEachAbsorbs(tracked, items, eng.addHotWord);
    AbsorbExtends(tracked, items);
  }

  /** A well-formed list appends the newly applied words after the old ones
      and calls the model once per new word, in order. When the model takes
      every word the closing warning names exactly the new words; otherwise
      the refused word is the last call, it is not tracked, and the handler
      ends with an uncaught error. */
  lemma ApplyAppends(tracked: seq<string>, items: seq<Item>, eng: Engine)
    requires items != [] && items[0].Entry?
    ensures var r := Apply(tracked, items, eng);
      && r.tracked[..|tracked|] == tracked
      && (forall i | |tracked| <= i < |r.tracked| ::
            r.trace[i - |tracked|].AddHotWord? && r.trace[i - |tracked|].word == r.tracked[i])
    ensures var r := Apply(tracked, items, eng);
      AcceptsAll(eng.addHotWord, Absorb(tracked, items)) ==>
        && |r.trace| == |r.tracked| - |tracked| + 1
        && r.trace[|r.trace| - 1] == Warn(HotwordsAdded(r.tracked[|tracked|..]))
    ensures var r := Apply(tracked, items, eng);
      !AcceptsAll(eng.addHotWord, Absorb(tracked, items)) ==>
        && |r.trace| == |r.tracked| - |tracked| + 2
        && r.trace[|r.trace| - 1] == Error(Uncaught)
        && r.trace[|r.trace| - 2].AddHotWord?
        && !eng.addHotWord(r.trace[|r.trace| - 2].word, r.trace[|r.trace| - 2].boost)
        && r.trace[|r.trace| - 2].word !in r.tracked
  {
    var l := AddEach(tracked, items, eng.addHotWord);
    var closing := if l.refused then Error(Uncaught) else Warn(HotwordsAdded(l.tracked[|tracked|..]));
    assert Apply(tracked, items, eng) == Applied(l.tracked, l.calls + [closing]);
    assert AcceptsAll(eng.addHotWord, Absorb(tracked, items)) <==> !l.refused by {
      AddEachAbsorbs(tracked, items, eng.addHotWord);
    }
    assert forall i | |tracked| <= i < |l.tracked| :: l.calls[i - |tracked|].word == l.tracked[i] by {
      AddEachAligns(tracked, items, eng.addHotWord);
    }
    assert l.refused ==> RefusedLast(l, eng.addHotWord) by {
      AddEachRefusedLast(tracked, items, eng.addHotWord);
    }
    CloseLoop(tracked, l, eng.addHotWord);
  }

  /** The loop's calls followed by its closing report, lined up with the words
      it tracked. */
  lemma CloseLoop(tracked: seq<string>, l: Loop, accepts: (string, real) -> bool)
    requires |tracked| <= |l.tracked| && l.tracked[..|tracked|] == tracked
    requires |l.calls| == |l.tracked| - |tracked| + (if l.refused then 1 else 0)
    requires forall i | 0 <= i < |l.calls| :: l.calls[i].AddHotWord?
    requires forall i | |tracked| <= i < |l.tracked| :: l.calls[i - |tracked|].word == l.tracked[i]
    requires l.refused ==> RefusedLast(l, accepts)
    ensures var trace := l.calls + [if l.refused then Error(Uncaught) else Warn(HotwordsAdded(l.tracked[|tracked|..]))];
      && (forall i | |tracked| <= i < |l.tracked| ::
            trace[i - |tracked|].AddHotWord? && trace[i - |tracked|].word == l.tracked[i])
      && (!l.refused ==>
            && |trace| == |l.tracked| - |tracked| + 1
            && trace[|trace| - 1] == Warn(HotwordsAdded(l.tracked[|tracked|..])))
      && (l.refused ==>
            && |trace| == |l.tracked| - |tracked| + 2
            && trace[|trace| - 1] == Error(Uncaught)
            && trace[|trace| - 2].AddHotWord?
            && !accepts(trace[|trace| - 2].word, trace[|trace| - 2].boost)
            && trace[|trace| - 2].word !in l.tracked)
  {
  }

  /** A word is handed to the model only if it was not tracked, and with the
      boost of one of the list's entries for it. */
  lemma ApplyAddsOnlyNew(tracked: seq<string>, items: seq<Item>, eng: Engine)
    ensures var r := Apply(tracked, items, eng);
      forall w, b | AddHotWord(w, b) in r.trace :: w !in tracked && Entry(w, b) in items
  {
    if items != [] && items[0].Entry? {
      var l := AddEach(tracked, items, eng.addHotWord);
      AddEachListed(tracked, items, eng.addHotWord);
      var last := if l.refused then Error(Uncaught) else Warn(HotwordsAdded(l.tracked[|tracked|..]));
      assert Apply(tracked, items, eng).trace == l.calls + [last];
      forall w, b | AddHotWord(w, b) in l.calls + [last]
        ensures w !in tracked && Entry(w, b) in items
      {
        assert AddHotWord(w, b) in l.calls;
      }
    }
  }

  /** What appending the absorbed words does to the tracked list. */
  lemma AbsorbExtends(tracked: seq<string>, items: seq<Item>)
    ensures var t := tracked + Words(Absorb(tracked, items));
            && (forall w :: w in t <==> w in tracked || w in Words(items))
            && (NoDups(tracked) ==> NoDups(t))
  {
    AbsorbedWordsListed(tracked, items);
    AbsorbComplete(tracked, items);
    if NoDups(tracked) {
      AbsorbKeepsNoDups(tracked, items);
    }
  }

  lemma AbsorbedWordsListed(tracked: seq<string>, items: seq<Item>)
    ensures forall w | w in Words(Absorb(tracked, items)) :: w in Words(items)
  {
    var added := Absorb(tracked, items);
    var ws := Words(added);
    forall w | w in ws
      ensures w in Words(items)
    {
      var i :| 0 <= i < |ws| && ws[i] == w;
      assert added[i] in added;
      var j :| 0 <= j < |items| && items[j] == added[i];
    }
  }

  lemma AbsorbKeepsNoDups(tracked: seq<string>, items: seq<Item>)
    requires NoDups(tracked)
    ensures NoDups(tracked + Words(Absorb(tracked, items)))
  {
    var added := Absorb(tracked, items);
    var ws := Words(added);
    var t := tracked + ws;
    AbsorbDistinct(tracked, items);
    forall i, j | 0 <= i < j < |t|
      ensures t[i] != t[j]
    {
      if j >= |tracked| {
        assert t[j] == added[j - |tracked|].word;
        assert added[j - |tracked|] in added;
        if i >= |tracked| {
          assert t[i] == added[i - |tracked|].word;
        }
      }
    }
  }

  /** Sending the same hotword list twice tracks each word once: the second
      delivery applies nothing. */
  lemma ApplyTwice(tracked: seq<string>, items: seq<Item>, eng: Engine)
    requires items != [] && items[0].Entry?
    requires AcceptsAll(eng.addHotWord, Absorb(tracked, items))
    ensures var once := Apply(tracked, items, eng);
            var twice := Apply(once.tracked, items, eng);
            twice.tracked == once.tracked
            && forall i | 0 <= i < |twice.trace| :: !twice.trace[i].AddHotWord?
  {
    var once := Apply(tracked, items, eng);
    ApplyTracks(tracked, items, eng);
    NothingNew(once.tracked, items);
    AddEachAbsorbs(once.tracked, items, eng.addHotWord);
    assert once.tracked + Words([]) == once.tracked;
  }

  lemma {:induction false} NothingNew(tracked: seq<string>, items: seq<Item>)
    requires forall w | w in Words(items) :: w in tracked
    ensures Absorb(tracked, items) == []
    decreases |items|
  {
    if items != [] {
      assert forall w | w in Words(items[1..]) :: w in Words(items);
      NothingNew(tracked, items[1..]);
    }
  }
}

=== FILE: numerals.dfy ===
/** The two textual number formats the nodes accept in their configuration:
    an unsigned integer (the pattern ^[0-9]+$, used for the finalize timeout
    and the beam width) and an unsigned decimal (the pattern
    ^[0-9]+[\.]?[0-9]*$, used for the scorer's alpha and beta).
 */
module Numerals {

  predicate IsDigit(c: char) {
    '0' <= c <= '9'
  }

  predicate AllDigits(s: string) {
    forall i | 0 <= i < |s| :: IsDigit(s[i])
  }

  /** ^[0-9]+$ */
  predicate IsInteger(s: string) {
    |s| > 0 && AllDigits(s)
  }

  function DigitValue(c: char): (d: nat)
    requires IsDigit(c)
    ensures d < 10
  {
    (c as int) - ('0' as int)
  }

  function DigitChar(d: nat): (c: char)
    requires d < 10
    ensures IsDigit(c) && DigitValue(c) == d
  {
    (('0' as int) + d) as char
  }

  /** The decimal value of a digit string, as parseInt and Number give it. */
  function Value(s: string): (v: nat)
    requires AllDigits(s)
    decreases |s|
  {
    if s == [] then 0 else 10 * Value(s[..|s| - 1]) + DigitValue(s[|s| - 1])
  }

  /** The canonical decimal rendering of a natural number. */
  function Render(n: nat): (s: string)
    ensures IsInteger(s)
    ensures s[0] == '0' ==> n == 0 && s == "0"
    decreases n
  {
    if n < 10 then [DigitChar(n)] else Render(n / 10) + [DigitChar(n % 10)]
  }

  /** Parsing inverts rendering: every accepted timeout value has a text form. */
  lemma {:induction false} ValueOfRender(n: nat)
    ensures Value(Render(n)) == n
    decreases n
  {
    if n >= 10 {
      var s := Render(n);
      assert s[..|s| - 1] == Render(n / 10);
      ValueOfRender(n / 10);
    }
  }

  /** A digit string denotes zero exactly when it is made of zeros only
      ("0", "00", ...). */
  lemma {:induction false} ValueZeroIffZeros(s: string)
    requires AllDigits(s)
    ensures Value(s) == 0 <==> forall i | 0 <= i < |s| :: s[i] == '0'
    decreases |s|
  {
    if s != [] {
      var p := s[..|s| - 1];
      ValueZeroIffZeros(p);
      if Value(s) == 0 {
        assert Value(p) == 0 && DigitValue(s[|s| - 1]) == 0;
        forall i | 0 <= i < |s|
          ensures s[i] == '0'
        {
          if i < |s| - 1 {
            assert s[i] == p[i];
          }
        }
      }
      if forall i | 0 <= i < |s| :: s[i] == '0' {
        forall i | 0 <= i < |p|
          ensures p[i] == '0'
        {
          assert p[i] == s[i];
        }
        assert Value(s) == 10 * Value(p) + DigitValue(s[|s| - 1]);
      }
    }
  }

  /** The length of the longest prefix of `s` made of digits. */
  function LeadingDigits(s: string): (k: nat)
    ensures k <= |s|
    ensures AllDigits(s[..k])
    ensures k < |s| ==> !IsDigit(s[k])
    decreases |s|
  {
    if s == [] || !IsDigit(s[0]) then 0
    else
      var k := 1 + LeadingDigits(s[1..]);
      assert s[..k] == [s[0]] + s[1..][..k - 1];
      k
  }

  /** ^[0-9]+[\.]?[0-9]*$, decided by one scan of the leading digits. */
  predicate IsDecimal(s: string) {
    var k := LeadingDigits(s);
    0 < k && (k == |s| || (s[k] == '.' && AllDigits(s[k + 1..])))
  }

  /** The same language described by its shape: digits alone, or a non-empty
      run of digits, one dot, and a possibly empty run of digits. */
  ghost predicate DecimalShape(s: string) {
    || IsInteger(s)
    || exists i | 0 < i < |s| :: s[i] == '.' && AllDigits(s[..i]) && AllDigits(s[i + 1..])
  }

  lemma IsDecimalIffShape(s: string)
    ensures IsDecimal(s) <==> DecimalShape(s)
  {
    if IsDecimal(s) {
      DecimalHasShape(s);
    }
    if DecimalShape(s) {
      ShapeIsDecimal(s);
    }
  }

  lemma DecimalHasShape(s: string)
    requires IsDecimal(s)
    ensures DecimalShape(s)
  {
    var k := LeadingDigits(s);
    if k == |s| {
      assert s[..k] == s;
      assert IsInteger(s);
    } else {
      assert s[k] == '.' && AllDigits(s[..k]) && AllDigits(s[k + 1..]);
    }
  }

  lemma ShapeIsDecimal(s: string)
    requires DecimalShape(s)
    ensures IsDecimal(s)
  {
    if IsInteger(s) {
      assert s[..|s|] == s;
      LeadingDigitsAt(s, |s|);
    } else {
      var i :| 0 < i < |s| && s[i] == '.' && AllDigits(s[..i]) && AllDigits(s[i + 1..]);
      LeadingDigitsAt(s, i);
    }
  }

  /** The leading run of digits ends where the first non-digit stands. */
  lemma {:induction false} LeadingDigitsAt(s: string, i: nat)
    requires i <= |s| && AllDigits(s[..i])
    requires i < |s| ==> !IsDigit(s[i])
    ensures LeadingDigits(s) == i
    decreases i
  {
    if i > 0 {
      assert IsDigit(s[0]) by {
        assert s[..i][0] == s[0];
      }
      assert s[1..][..i - 1] == s[..i][1..];
      LeadingDigitsAt(s[1..], i - 1);
    }
  }
}

=== FILE: startup.dfy ===
/** Start-up of either node: the path checks, the construction of the native
    decoder and the optional tuning, and the permanent `errorStop` gate that any
    fatal failure closes. The filesystem is a predicate on paths, and a native
    call that throws is described by a predicate on the calls themselves.
 */
module Startup {
  import opened Base
  import opened Numerals

  /** The configuration both nodes share, as the editor stores it. */
  datatype Config = Config(
    modelPath: string,
    scorerPath: string,
    showAdvanced: bool,
    enableBeamwidth: bool,
    beamWidth: string,
    enableAlphaBeta: bool,
    lmAlpha: string,
    lmBeta: string,
    disableScorer: bool)

  // The advanced switches take effect only while the advanced section is shown.

  predicate ScorerDisabled(c: Config) {
    c.showAdvanced && c.disableScorer
  }

  predicate BeamWidthEnabled(c: Config) {
    c.showAdvanced && c.enableBeamwidth
  }

  predicate AlphaBetaEnabled(c: Config) {
    c.showAdvanced && c.enableAlphaBeta
  }

  /** The errors the two existence checks log, in order. */
  function PathErrors(c: Config, present: string -> bool): (errs: seq<Effect>)
    ensures Error(ModelMissing) in errs <==> !present(c.modelPath)
    ensures Error(ScorerMissing) in errs <==> !present(c.scorerPath) && !ScorerDisabled(c)
    ensures forall i | 0 <= i < |errs| :: errs[i].Error?
    ensures errs == [] <==> present(c.modelPath) && (present(c.scorerPath) || ScorerDisabled(c))
  {
    (if present(c.modelPath) then [] else [Error(ModelMissing)])
    + (if !present(c.scorerPath) && !ScorerDisabled(c) then [Error(ScorerMissing)] else [])
  }

  /** Attaching the scorer, unless it is disabled. */
  function ScorerCalls(c: Config): (calls: seq<Effect>)
    ensures forall e | e in calls :: e == EnableScorer(c.scorerPath)
    ensures calls != [] <==> !ScorerDisabled(c)
  {
    if ScorerDisabled(c) then [] else [EnableScorer(c.scorerPath)]
  }

  /** The beam-width step of the advanced section: applied only from a
      well-formed integer text, ignored with a warning otherwise. */
  function BeamCalls(c: Config): (calls: seq<Effect>)
    ensures |calls| == 1
    ensures calls[0].SetBeamWidth? <==> BeamWidthEnabled(c) && IsInteger(c.beamWidth)
    ensures calls[0].SetBeamWidth? ==> calls[0].width == Value(c.beamWidth)
    ensures !calls[0].SetBeamWidth? ==> calls[0] == Warn(BeamWidthIgnored)
  {
    if BeamWidthEnabled(c) && IsInteger(c.beamWidth) then [SetBeamWidth(Value(c.beamWidth))]
    else [Warn(BeamWidthIgnored)]
  }

  /** The alpha/beta step of the advanced section: considered only with a
      scorer, applied only when both texts are well-formed decimals, and then
      with the alpha text in both positions. */
  function AlphaBetaCalls(c: Config): (calls: seq<Effect>)
    ensures |calls| <= 1
    ensures calls != [] <==> AlphaBetaEnabled(c) && !ScorerDisabled(c)
    ensures calls != [] ==>
      (calls[0].SetAlphaBeta? <==> IsDecimal(c.lmAlpha) && IsDecimal(c.lmBeta))
    ensures calls != [] && calls[0].SetAlphaBeta? ==> calls[0] == SetAlphaBeta(c.lmAlpha, c.lmAlpha)
    ensures calls != [] && !calls[0].SetAlphaBeta? ==> calls[0] == Warn(AlphaBetaIgnored)
  {
    if !(AlphaBetaEnabled(c) && !ScorerDisabled(c)) then []
    else if IsDecimal(c.lmAlpha) && IsDecimal(c.lmBeta) then [SetAlphaBeta(c.lmAlpha, c.lmAlpha)]
    else [Warn(AlphaBetaIgnored)]
  }

  /** The native calls that build and tune the decoder, with the warnings
      logged between them, in the order the node issues them. */
  function Plan(c: Config): (plan: seq<Effect>)
    ensures |plan| > 0 && plan[0] == LoadModel(c.modelPath)
    ensures forall i | 0 <= i < |plan| :: IsNative(plan[i]) || plan[i].Warn?
    ensures forall i | 0 < i < |plan| :: !plan[i].LoadModel?
  {
    [LoadModel(c.modelPath)] + ScorerCalls(c) + (if c.showAdvanced then BeamCalls(c) + AlphaBetaCalls(c) else [])
  }

  lemma PlanTuning(c: Config)
    ensures forall p :: EnableScorer(p) in Plan(c) <==> !ScorerDisabled(c) && p == c.scorerPath
    ensures forall n :: SetBeamWidth(n) in Plan(c) <==>
      BeamWidthEnabled(c) && IsInteger(c.beamWidth) && n == Value(c.beamWidth)
    ensures forall a, b :: SetAlphaBeta(a, b) in Plan(c) <==>
      && AlphaBetaEnabled(c) && !ScorerDisabled(c)
      && IsDecimal(c.lmAlpha) && IsDecimal(c.lmBeta)
      && a == c.lmAlpha && b == c.lmAlpha
  {
    var tuning := if c.showAdvanced then BeamCalls(c) + AlphaBetaCalls(c) else [];
    assert Plan(c) == [LoadModel(c.modelPath)] + ScorerCalls(c) + tuning;
  }

  /** No native call of `plan` throws. */
  predicate Completes(plan: seq<Effect>, throws: Effect -> bool) {
    forall i | 0 <= i < |plan| :: IsNative(plan[i]) ==> !throws(plan[i])
  }

  /** The position of the first native call of `plan` that throws, or the
      length of the plan when none does. */
  function FirstThrow(plan: seq<Effect>, throws: Effect -> bool): (k: nat)
    ensures k <= |plan|
    ensures Completes(plan[..k], throws)
    ensures k < |plan| ==> IsNative(plan[k]) && throws(plan[k])
    decreases |plan|
  {
    if plan == [] then 0
    else if IsNative(plan[0]) && throws(plan[0]) then 0
    else
      var k := 1 + FirstThrow(plan[1..], throws);
      assert forall i | 1 <= i < k :: plan[..k][i] == plan[1..][..k - 1][i - 1];
      k
  }

  datatype Built = Built(trace: seq<Effect>, failed: bool)

  /** Issues the calls of `plan` in order until one throws; the throw is
      caught and logged, and the rest of the plan is skipped. */
  function Construct(plan: seq<Effect>, throws: Effect -> bool): (r: Built)
    ensures !r.failed <==> Completes(plan, throws)
    ensures !r.failed ==> r.trace == plan
    // a failure stops right after the first throwing call, logging it
    ensures r.failed ==>
      && 2 <= |r.trace| <= |plan| + 1
      && var k := |r.trace| - 2;
         && IsNative(plan[k]) && throws(plan[k]) && Completes(plan[..k], throws)
         && r.trace == plan[..k + 1] + [Error(DecoderError)]
  {
    var k := FirstThrow(plan, throws);
    if k == |plan| then
      assert plan[..k] == plan;
      Built(plan, false)
    else
      Built(plan[..k + 1] + [Error(DecoderError)], true)
  }

  /** The outcome of start-up common to both nodes. */
  datatype Boot = Boot(errorStop: bool, modelLoaded: bool, trace: seq<Effect>)

  /** Builds the decoder unless an earlier check already logged an error
      (`gate`), in which case no native call is made at all. */
  function BootDecoder(c: Config, gate: seq<Effect>, throws: Effect -> bool): (b: Boot)
    requires forall i | 0 <= i < |gate| :: gate[i].Error?
    ensures b.errorStop <==> gate != [] || !Completes(Plan(c), throws)
    ensures gate != [] ==>
      !b.modelLoaded && b.trace == gate + [Error(NeedsValidPaths)]
    ensures gate == [] ==> (b.modelLoaded <==> !throws(LoadModel(c.modelPath)))
    ensures !b.errorStop ==> b.modelLoaded
    // tuning is only ever applied from well-formed text, alpha in both positions
    ensures forall n | SetBeamWidth(n) in b.trace ::
      BeamWidthEnabled(c) && IsInteger(c.beamWidth) && n == Value(c.beamWidth)
    ensures forall a, a' | SetAlphaBeta(a, a') in b.trace ::
      && AlphaBetaEnabled(c) && !ScorerDisabled(c)
      && IsDecimal(c.lmAlpha) && IsDecimal(c.lmBeta)
      && a == c.lmAlpha && a' == c.lmAlpha
    // and it is applied whenever the text is well formed and nothing failed
    ensures !b.errorStop ==>
      && ((exists n :: SetBeamWidth(n) in b.trace) <==> BeamWidthEnabled(c) && IsInteger(c.beamWidth))
      && ((exists a, a' :: SetAlphaBeta(a, a') in b.trace) <==>
            AlphaBetaEnabled(c) && !ScorerDisabled(c) && IsDecimal(c.lmAlpha) && IsDecimal(c.lmBeta))
      && (EnableScorer(c.scorerPath) in b.trace <==> !ScorerDisabled(c))
  {
    if gate != [] then Boot(true, false, gate + [Error(NeedsValidPaths)])
    else
      var plan := Plan(c);
      var built := Construct(plan, throws);
      PlanTuning(c);
      assert !throws(LoadModel(c.modelPath)) <==> !(IsNative(plan[0]) && throws(plan[0]));
      assert built.failed && !throws(LoadModel(c.modelPath)) ==> |built.trace| > 1;
      assert !built.failed && BeamWidthEnabled(c) && IsInteger(c.beamWidth) ==>
        SetBeamWidth(Value(c.beamWidth)) in built.trace;
      assert !built.failed && AlphaBetaEnabled(c) && !ScorerDisabled(c) && IsDecimal(c.lmAlpha) && IsDecimal(c.lmBeta) ==>
        SetAlphaBeta(c.lmAlpha, c.lmAlpha) in built.trace;
      Boot(built.failed, !throws(LoadModel(c.modelPath)), built.trace)
  }
}

=== FILE: stream.dfy ===
/** The streaming node: a controller that owns at most one native decode
    stream, fed with raw audio chunks, finalized on request or after a period
    without input, and peeked at on request. The inactivity timer is an explicit
    event; the stream is represented by the chunks fed into it so far.
 */
module Stream {
  import opened Base
  import opened Numerals
  import opened Hotwords
  import opened Startup

  datatype Session = Idle | Active(fed: seq<Chunk>)

  /** The state of one streaming node. `timeout` is the parsed finalize timeout
      in milliseconds, `None` when its text was rejected at start-up. */
  datatype Node = Node(
    errorStop: bool,
    timeout: Option<nat>,
    modelLoaded: bool,
    hotwords: seq<string>,
    session: Session,
    timerPending: bool)

  datatype Step = Step(node: Node, trace: seq<Effect>)

  datatype Event = Message(payload: Payload) | TimerFires

  /** The audio the current stream has consumed. */
  function Fed(s: Session): (fed: seq<Chunk>) {
    if s.Active? then s.fed else []
  }

  /** The invariant every reachable node state keeps. */
  ghost predicate Valid(n: Node) {
    && (n.timerPending ==> n.session.Active? && n.timeout != Some(0))
    && (n.errorStop ==> n.session.Idle? && !n.timerPending)
    && (!n.errorStop ==> n.modelLoaded && n.timeout.Some?)
    && NoDups(n.hotwords)
  }

  /** Start-up: the path checks, the timeout check, then the decoder. */
  function Start(c: Config, finalTimeout: string, present: string -> bool, throws: Effect -> bool): (r: Step)
    ensures Valid(r.node)
    ensures r.node.session == Idle && !r.node.timerPending && r.node.hotwords == []
    ensures r.node.errorStop <==>
      || !present(c.modelPath)
      || (!present(c.scorerPath) && !ScorerDisabled(c))
      || !IsInteger(finalTimeout)
      || !Completes(Plan(c), throws)
    ensures IsInteger(finalTimeout) ==> r.node.timeout == Some(Value(finalTimeout))
    ensures !IsInteger(finalTimeout) ==> Error(BadTimeout) in r.trace
    // the model is constructed only past every check, and is held unless that throws
    ensures r.node.modelLoaded <==>
      PathErrors(c, present) == [] && IsInteger(finalTimeout) && !throws(LoadModel(c.modelPath))
    ensures r.node.errorStop ==> exists i | 0 <= i < |r.trace| :: r.trace[i].Error?
  {
    var gate := PathErrors(c, present) + (if IsInteger(finalTimeout) then [] else [Error(BadTimeout)]);
    var b := BootDecoder(c, gate, throws);
    assert b.errorStop ==> b.trace[|b.trace| - 1].Error?;
    var timeout := if IsInteger(finalTimeout) then Some(Value(finalTimeout)) else None;
    Step(Node(b.errorStop, timeout, b.modelLoaded, [], Idle, false), b.trace)
  }

  /** An audio buffer: the stream is created on the first one, the buffer is
      fed, and unless the timeout is 0 the inactivity timer is rearmed,
      cancelling the pending one first. */
  function Feed(n: Node, c: Chunk): (r: Step)
    ensures r.node.session == Active(Fed(n.session) + [c])
    ensures r.node.timerPending <==> n.timerPending || n.timeout != Some(0)
    ensures r.node.(session := n.session, timerPending := n.timerPending) == n
    ensures CreateStream in r.trace <==> n.session.Idle?
    ensures FeedAudio(c) in r.trace
    ensures SetTimer in r.trace <==> n.timeout != Some(0)
    ensures ClearTimer in r.trace <==> n.timeout != Some(0) && n.timerPending
    // the pending timer is cleared just before the new one is set, last
    ensures n.timeout != Some(0) ==> |r.trace| >= 2 && r.trace[|r.trace| - 1] == SetTimer
    ensures n.timeout != Some(0) && n.timerPending ==> r.trace[|r.trace| - 2] == ClearTimer
    ensures forall e | e in r.trace :: !e.Send? && !e.Error?
  {
    var open := if n.session.Active? then [] else [CreateStream];
    FeedTrace(open, c, n.timerPending, n.timeout != Some(0));
    Step(n.(session := Active(Fed(n.session) + [c]), timerPending := n.timerPending || n.timeout != Some(0)),
         open + [FeedAudio(c)] + Rearm(n.timerPending, n.timeout != Some(0)))
  }

  /** The effects of a buffer: the optional creation, the feed, then the
      timer effects, last. */
  lemma FeedTrace(open: seq<Effect>, c: Chunk, pending: bool, armed: bool)
    requires open == [] || open == [CreateStream]
    ensures var t := open + [FeedAudio(c)] + Rearm(pending, armed);
      && (CreateStream in t <==> open != [])
      && FeedAudio(c) in t
      && (SetTimer in t <==> armed)
      && (ClearTimer in t <==> armed && pending)
      && (armed ==> |t| >= 2 && t[|t| - 1] == SetTimer)
      && (armed && pending ==> t[|t| - 2] == ClearTimer)
      && (forall e | e in t :: !e.Send? && !e.Error?)
  {
    var head := open + [FeedAudio(c)];
    var rearm := Rearm(pending, armed);
    assert forall e | e in head :: e == CreateStream || e == FeedAudio(c);
    assert forall e :: e in head + rearm <==> e in head || e in rearm;
    if armed {
      assert (head + rearm)[|head + rearm| - 1] == rearm[|rearm| - 1];
      if pending {
        assert (head + rearm)[|head + rearm| - 2] == rearm[0];
      }
    }
  }

  /** The only decoder calls of a buffer: the stream is created if there is
      none, and the buffer is fed into it once. */
  lemma FeedCalls(n: Node, c: Chunk)
    ensures Natives(Feed(n, c).trace) == (if n.session.Idle? then [CreateStream] else []) + [FeedAudio(c)]
  {
    var open := if n.session.Active? then [] else [CreateStream];
    var rearm := Rearm(n.timerPending, n.timeout != Some(0));
    assert Feed(n, c).trace == open + [FeedAudio(c)] + rearm;
    OpenThenTimers(open, FeedAudio(c), rearm);
  }

  /** Decoder calls followed by timer operations: only the calls remain. */
  lemma OpenThenTimers(open: seq<Effect>, feed: Effect, timers: seq<Effect>)
    requires open == [] || open == [CreateStream]
    requires IsNative(feed)
    requires forall i | 0 <= i < |timers| :: !IsNative(timers[i])
    ensures Natives(open + [feed] + timers) == open + [feed]
  {
    NativesAppend(open + [feed], timers);
    NativesAppend(open, [feed]);
    NativesFree(timers);
    NativesOne(feed);
    if open != [] {
      NativesOne(CreateStream);
    }
    assert (open + [feed]) + [] == open + [feed];
  }

  /** The timer effects of a buffer: none when the timeout is 0, otherwise a
      new timer, after cancelling the pending one. */
  function Rearm(pending: bool, armed: bool): (t: seq<Effect>)
    ensures armed ==> |t| >= 1 && t[|t| - 1] == SetTimer
    ensures armed && pending ==> |t| == 2 && t[0] == ClearTimer
    ensures SetTimer in t <==> armed
    ensures ClearTimer in t <==> armed && pending
    ensures forall e | e in t :: e == SetTimer || e == ClearTimer
  {
    if !armed then []
    else if pending then [ClearTimer, SetTimer]
    else [SetTimer]
  }

  /** "stop": the stream is dropped without reading a result. A failing free
      is logged and leaves the stream in place; the timer is cancelled first
      either way. */
  function Stop(n: Node, eng: Engine): (r: Step)
    ensures n.session.Idle? ==> r == Step(n, [Warn(NoInference)])
    ensures n.session.Active? ==>
      && !r.node.timerPending
      && FreeStream in r.trace
      && (r.node.session == Idle <==> eng.freeStream(n.session.fed))
      && (r.node.session != Idle ==> r.node.session == n.session && Error(StreamCleanup) in r.trace)
    // the stream is freed exactly once, and nothing else is called
    ensures n.session.Active? ==> Natives(r.trace) == [FreeStream]
    ensures r.node.(session := n.session, timerPending := n.timerPending) == n
    ensures Sends(r.trace) == []
  {
    match n.session
    case Idle => Step(n, [Warn(NoInference)])
    case Active(fed) =>
      var cancel := if n.timerPending then [ClearTimer] else [];
      var trace := cancel + ([FreeStream] + (if eng.freeStream(fed) then [] else [Error(StreamCleanup)]));
      SendsOfSendFree(trace);
      assert Natives(trace) == [FreeStream] by {
        NativesAppend(cancel, [FreeStream] + (if eng.freeStream(fed) then [] else [Error(StreamCleanup)]));
        NativesFree(cancel);
        NativesThen(FreeStream, if eng.freeStream(fed) then [] else [Error(StreamCleanup)]);
        assert [] + [FreeStream] == [FreeStream];
      }
      Step(n.(session := if eng.freeStream(fed) then Idle else n.session, timerPending := false), trace)
  }

  /** Finalizing the stream: its complete transcript is sent once and the
      node returns to no stream. A throwing finalize sends nothing and keeps
      the stream. Shared by "stop_result" and the inactivity timer. */
  function Finalize(n: Node, fed: seq<Chunk>, eng: Engine, failure: Fault): (r: Step)
    ensures !r.node.timerPending
    ensures r.node.(session := n.session, timerPending := n.timerPending) == n
    ensures eng.finish(fed).Some? ==>
      r.node.session == Idle && Sends(r.trace) == [Transcript(eng.finish(fed).value, None)]
    ensures eng.finish(fed).None? ==>
      r.node.session == n.session && Sends(r.trace) == [] && Error(failure) in r.trace
    // the stream is finished exactly once, and nothing else is called
    ensures Natives(r.trace) == [FinishStream]
  {
    match eng.finish(fed)
    case Some(text) =>
      NativesThen(FinishStream, [Send(Transcript(text, None))]);
      Step(n.(session := Idle, timerPending := false), [FinishStream, Send(Transcript(text, None))])
    case None =>
      NativesThen(FinishStream, [Error(failure)]);
      Step(n.(timerPending := false), [FinishStream, Error(failure)])
  }

  /** "stop_result": the pending timer is cancelled, then the stream finalized. */
  function StopResult(n: Node, eng: Engine): (r: Step)
    ensures n.session.Idle? ==> r == Step(n, [Warn(NoInference)])
    ensures n.session.Active? ==>
      && !r.node.timerPending
      && |r.trace| > 0
      && (n.timerPending ==> r.trace[0] == ClearTimer)
      && FinishStream in r.trace
    ensures n.session.Active? && eng.finish(n.session.fed).Some? ==>
      && r.node.session == Idle
      && Sends(r.trace) == [Transcript(eng.finish(n.session.fed).value, None)]
    ensures n.session.Active? && eng.finish(n.session.fed).None? ==>
      r.node.session == n.session && Sends(r.trace) == [] && Error(StreamCleanup) in r.trace
    ensures n.session.Active? ==> Natives(r.trace) == [FinishStream]
    ensures r.node.(session := n.session, timerPending := n.timerPending) == n
  {
    match n.session
    case Idle => Step(n, [Warn(NoInference)])
    case Active(fed) =>
      var cancel := if n.timerPending then [ClearTimer] else [];
      var f := Finalize(n, fed, eng, StreamCleanup);
      SendsAppend(cancel, f.trace);
      NativesAppend(cancel, f.trace);
      NativesFree(cancel);
      assert [] + Natives(f.trace) == Natives(f.trace);
      Step(f.node, cancel + f.trace)
  }

  /** "intermediate": a partial transcript of everything fed so far is sent;
      the stream and the timer are left alone. */
  function Intermediate(n: Node, eng: Engine): (r: Step)
    ensures r.node == n
    ensures n.session.Idle? ==> r.trace == [Warn(NoInference)]
    ensures n.session.Active? ==>
      Sends(r.trace) == [Transcript(eng.intermediate(n.session.fed), None)]
    // a peek: one partial decode, and no call that finishes or frees the stream
    ensures n.session.Active? ==> Natives(r.trace) == [IntermediateDecode]
    ensures forall i | 0 <= i < |r.trace| :: !r.trace[i].SetTimer? && !r.trace[i].ClearTimer?
  {
    match n.session
    case Idle => Step(n, [Warn(NoInference)])
    case Active(fed) =>
      NativesThen(IntermediateDecode, [Send(Transcript(eng.intermediate(fed), None))]);
      Step(n, [IntermediateDecode, Send(Transcript(eng.intermediate(fed), None))])
  }

  /** A string payload: the three control words act; any string, recognised
      or not, is then followed by the generic "ignored" warning. */
  function Control(n: Node, s: string, eng: Engine): (r: Step)
  {
    var acted :=
      if s == "stop" then Stop(n, eng)
      else if s == "stop_result" then StopResult(n, eng)
      else if s == "intermediate" then Intermediate(n, eng)
      else Step(n, []);
    Step(acted.node, acted.trace + [Warn(PayloadIgnored)])
  }

  /** What each string does, and that every string ends with the generic
      "ignored" warning. */
  lemma ControlEffects(n: Node, s: string, eng: Engine)
    ensures var r := Control(n, s, eng);
      && |r.trace| > 0 && r.trace[|r.trace| - 1] == Warn(PayloadIgnored)
      && (s !in {"stop", "stop_result", "intermediate"} ==> r == Step(n, [Warn(PayloadIgnored)]))
      && (s == "intermediate" ==> r.node == n)
      && (s == "intermediate" && n.session.Active? ==>
            Sends(r.trace) == [Transcript(eng.intermediate(n.session.fed), None)])
      && (s == "stop_result" && n.session.Active? && eng.finish(n.session.fed).Some? ==>
            && r.node == n.(session := Idle, timerPending := false)
            && Sends(r.trace) == [Transcript(eng.finish(n.session.fed).value, None)])
      && (s == "stop" ==> Sends(r.trace) == [])
  {
    var acted :=
      if s == "stop" then Stop(n, eng)
      else if s == "stop_result" then StopResult(n, eng)
      else if s == "intermediate" then Intermediate(n, eng)
      else Step(n, []);
    SendsAppend(acted.trace, [Warn(PayloadIgnored)]);
  }

  /** One input message. */
  function Input(n: Node, p: Payload, eng: Engine): (r: Step)
    // a node stopped at start-up only warns
    ensures n.errorStop ==> r == Step(n, [Warn(NotSetUp)])
    // hotword lists never touch the stream or the timer
    ensures !n.errorStop && p.List? ==>
      && r.node == n.(hotwords := Apply(n.hotwords, p.items, eng).tracked)
      && Sends(r.trace) == []
    ensures !n.errorStop && p.Other? ==> r == Step(n, [Warn(PayloadIgnored)])
    ensures !n.errorStop && p.Text? && p.text !in {"stop", "stop_result", "intermediate"} ==>
      r == Step(n, [Warn(PayloadIgnored)])
    ensures !n.errorStop && p.Audio? ==> r == Feed(n, p.chunk)
    ensures !n.errorStop && p.Text? ==> r == Control(n, p.text, eng)
  {
    if n.errorStop then Step(n, [Warn(NotSetUp)])
    else match p
      case Audio(c) => Feed(n, c)
      case List(items) =>
        var h := Apply(n.hotwords, items, eng);
        SendsOfSendFree(h.trace);
        Step(n.(hotwords := h.tracked), h.trace)
      case Text(s) => Control(n, s, eng)
      case Other => Step(n, [Warn(PayloadIgnored)])
  }

  /** The inactivity timer elapses: the stream is finalized and its transcript
      sent, as for "stop_result". A finalize that throws here is not caught. */
  function Fire(n: Node, eng: Engine): (r: Step)
    ensures !(n.timerPending && n.session.Active?) ==> r == Step(n, [])
    ensures n.timerPending && n.session.Active? ==> !r.node.timerPending && FinishStream in r.trace
    ensures n.timerPending && n.session.Active? ==> Natives(r.trace) == [FinishStream]
    ensures n.timerPending && n.session.Active? && eng.finish(n.session.fed).Some? ==>
      r.node.session == Idle && Sends(r.trace) == [Transcript(eng.finish(n.session.fed).value, None)]
    ensures n.timerPending && n.session.Active? && eng.finish(n.session.fed).None? ==>
      r.node.session == n.session && Sends(r.trace) == [] && Error(Uncaught) in r.trace
    // only the stream and the timer flag can change
    ensures r.node.(session := n.session, timerPending := n.timerPending) == n
  {
    if n.timerPending && n.session.Active? then Finalize(n, n.session.fed, eng, Uncaught)
    else Step(n, [])
  }

  function Handle(n: Node, ev: Event, eng: Engine): (r: Step) {
    match ev
    case Message(p) => Input(n, p, eng)
    case TimerFires => Fire(n, eng)
  }

  /** Events handled one at a time, in arrival order, by `handle`. */
  function Replay(n: Node, evs: seq<Event>, handle: (Node, Event) -> Step): (r: Step)
    decreases |evs|
  {
    if evs == [] then Step(n, [])
    else
      var s := handle(n, evs[0]);
      var rest := Replay(s.node, evs[1..], handle);
      Step(rest.node, s.trace + rest.trace)
  }

  /** A sequence of events handled by the node, in arrival order. */
  function Run(n: Node, evs: seq<Event>, eng: Engine): (r: Step)
  {
    Replay(n, evs, (m, ev) => Handle(m, ev, eng))
  }

  /** Replaying a concatenation is replaying one part after the other. */
  lemma {:induction false} ReplaySplit(n: Node, a: seq<Event>, b: seq<Event>, handle: (Node, Event) -> Step)
    ensures var first := Replay(n, a, handle);
            var second := Replay(first.node, b, handle);
            Replay(n, a + b, handle) == Step(second.node, first.trace + second.trace)
    decreases |a|
  {
    if a == [] {
      assert a + b == b;
    } else {
      var h := handle(n, a[0]);
      ReplaySplit(h.node, a[1..], b, handle);
      assert (a + b)[1..] == a[1..] + b;
      var first := Replay(h.node, a[1..], handle);
      var second := Replay(first.node, b, handle);
      assert h.trace + (first.trace + second.trace) == (h.trace + first.trace) + second.trace;
    }
  }

  lemma RunAppend(n: Node, a: seq<Event>, b: seq<Event>, eng: Engine)
    ensures var first := Run(n, a, eng);
            var second := Run(first.node, b, eng);
            Run(n, a + b, eng) == Step(second.node, first.trace + second.trace)
  {
    ReplaySplit(n, a, b, (m, ev) => Handle(m, ev, eng));
  }

  /** The first event, then the rest. */
  lemma RunCons(n: Node, evs: seq<Event>, eng: Engine)
    requires evs != []
    ensures var s := Handle(n, evs[0], eng);
            var rest := Run(s.node, evs[1..], eng);
            Run(n, evs, eng) == Step(rest.node, s.trace + rest.trace)
  {
  }

  lemma RunOne(n: Node, ev: Event, eng: Engine)
    ensures Run(n, [ev], eng) == Handle(n, ev, eng)
  {
    RunCons(n, [ev], eng);
    assert [ev][1..] == [];
  }

  /** Freeing the stream at teardown, if there is one. */
  function ReleaseStream(s: Session, eng: Engine): (r: (Session, seq<Effect>))
    ensures s.Idle? ==> r == (Idle, [])
    ensures s.Active? ==> |r.1| > 0 && r.1[0] == FreeStream && Count(FreeStream, r.1) == 1
    ensures r.0 == Idle <==> s.Idle? || eng.freeStream(s.fed)
    ensures r.0 != Idle ==> r.0 == s
    ensures forall i | 0 <= i < |r.1| :: !r.1[i].Send? && r.1[i] != FreeModel
    ensures forall i | 0 <= i < |r.1| :: r.1[i] == FreeStream || r.1[i].Error?
    ensures Natives(r.1) == if s.Active? then [FreeStream] else []
  {
    match s
    case Idle => (Idle, [])
    case Active(fed) =>
      if eng.freeStream(fed) then NativesOne(FreeStream); (Idle, [FreeStream])
      else NativesThen(FreeStream, [Error(StreamCleanup)]); (s, [FreeStream, Error(StreamCleanup)])
  }

  /** Teardown: the timer is cancelled, then the stream and the model are
      each freed if present; failures are logged and never escape. */
  function Close(n: Node, eng: Engine): (r: Step)
    ensures !r.node.timerPending
    ensures r.node.session == Idle <==> n.session.Idle? || eng.freeStream(n.session.fed)
    ensures r.node.modelLoaded <==> n.modelLoaded && !eng.freeModel
    ensures Sends(r.trace) == []
    // the pending timer is cancelled before anything else, and no timer is set
    ensures n.timerPending ==> |r.trace| > 0 && r.trace[0] == ClearTimer
    ensures forall i | 0 <= i < |r.trace| ::
      !r.trace[i].SetTimer? && (r.trace[i].ClearTimer? ==> i == 0 && n.timerPending)
    // the stream, if any, is freed once, then the model, if loaded, once
    ensures Natives(r.trace) ==
      (if n.session.Active? then [FreeStream] else []) + (if n.modelLoaded then [FreeModel] else [])
  {
    var cancel := if n.timerPending then [ClearTimer] else [];
    var stream := ReleaseStream(n.session, eng);
    var model := ReleaseModel(n.modelLoaded, eng.freeModel);
    TeardownTrace(n.timerPending, stream.1, model.1);
    Step(n.(session := stream.0, modelLoaded := model.0, timerPending := false), cancel + (stream.1 + model.1))
  }

  /** A cancel of the pending timer followed by releases: no message, no
      timer but that cancel, and the released handles in order. */
  lemma TeardownTrace(pending: bool, stream: seq<Effect>, model: seq<Effect>)
    requires forall i | 0 <= i < |stream| :: stream[i] == FreeStream || stream[i].Error?
    requires forall i | 0 <= i < |model| :: model[i] == FreeModel || model[i].Error?
    ensures var t := (if pending then [ClearTimer] else []) + (stream + model);
      && Sends(t) == []
      && (pending ==> |t| > 0 && t[0] == ClearTimer)
      && (forall i | 0 <= i < |t| :: !t[i].SetTimer? && (t[i].ClearTimer? ==> i == 0 && pending))
      && Natives(t) == Natives(stream) + Natives(model)
  {
    var cancel := if pending then [ClearTimer] else [];
    var t := cancel + (stream + model);
    SendsOfSendFree(t);
    NativesAfter(cancel, stream, model);
  }

  /** Teardown frees the stream exactly when there is one and the model
      exactly when it is loaded, each at most once. */
  lemma CloseReleasesOnce(n: Node, eng: Engine)
    ensures var r := Close(n, eng);
      && Count(FreeStream, r.trace) == (if n.session.Active? then 1 else 0)
      && Count(FreeModel, r.trace) == (if n.modelLoaded then 1 else 0)
  {
    ReleaseCounts(Close(n, eng).trace, n.session.Active?, n.modelLoaded);
  }
}

=== FILE: stream_properties.dfy ===
/** Properties of the streaming node over whole event sequences: the state
    invariant, the permanent start-up gate, the inactivity-timer discipline,
    how fed audio accumulates, and the end-to-end scenarios the node promises.
 */
module StreamProperties {
  import opened Base
  import opened Numerals
  import opened Hotwords
  import opened Startup
  import opened Stream

  // ---------------------------------------------------------------------------
  // The invariant

  lemma InputKeepsValid(n: Node, p: Payload, eng: Engine)
    requires Valid(n)
    ensures Valid(Input(n, p, eng).node)
  {
    if !n.errorStop && p.Text? {
      var s := p.text;
      if s == "stop" {
        assert Control(n, s, eng).node == Stop(n, eng).node;
      } else if s == "stop_result" {
        assert Control(n, s, eng).node == StopResult(n, eng).node;
      } else if s == "intermediate" {
        assert Control(n, s, eng).node == n;
      }
    }
  }

  lemma HandleKeepsValid(n: Node, ev: Event, eng: Engine)
    requires Valid(n)
    ensures Valid(Handle(n, ev, eng).node)
  {
    if ev.Message? {
      InputKeepsValid(n, ev.payload, eng);
    }
  }

  lemma {:induction false} RunKeepsValid(n: Node, evs: seq<Event>, eng: Engine)
    requires Valid(n)
    ensures Valid(Run(n, evs, eng).node)
    decreases |evs|
  {
    if evs != [] {
      HandleKeepsValid(n, evs[0], eng);
      RunKeepsValid(Handle(n, evs[0], eng).node, evs[1..], eng);
    }
  }

  // ---------------------------------------------------------------------------
  // The start-up gate

  /** A node stopped at start-up stays exactly as it is whatever arrives, and
      only ever warns: no decoder call, no timer, no message. */
  lemma {:induction false} StoppedNodeOnlyWarns(n: Node, evs: seq<Event>, eng: Engine)
    requires Valid(n) && n.errorStop
    ensures Run(n, evs, eng).node == n
    ensures OnlyWarnings(Run(n, evs, eng).trace)
    decreases |evs|
  {
    if evs != [] {
      var s := Handle(n, evs[0], eng);
      assert s.node == n && OnlyWarnings(s.trace);
      StoppedNodeOnlyWarns(n, evs[1..], eng);
    }
  }

  // ---------------------------------------------------------------------------
  // The inactivity timer

  /** The number of live timers after one effect: scheduling adds one, and
      clearing the handle the node holds cancels one. */
  function Tick(live: nat, e: Effect): (after: nat) {
    if e == SetTimer then live + 1
    else if e == ClearTimer && live > 0 then live - 1
    else live
  }

  /** The number of live timers after replaying a trace from `live`. */
  function LiveAfter(live: nat, trace: seq<Effect>): (after: nat)
    decreases |trace|
  {
    if trace == [] then live else LiveAfter(Tick(live, trace[0]), trace[1..])
  }

  /** The largest number of timers live at any point of the replay. */
  function Peak(live: nat, trace: seq<Effect>): (p: nat)
    ensures live <= p
    decreases |trace|
  {
    if trace == [] then live
    else
      var rest := Peak(Tick(live, trace[0]), trace[1..]);
      if live >= rest then live else rest
  }

  predicate TimerFree(trace: seq<Effect>) {
    forall i | 0 <= i < |trace| :: !trace[i].SetTimer? && !trace[i].ClearTimer?
  }

  function Pending(n: Node): (k: nat) {
    if n.timerPending then 1 else 0
  }

  lemma {:induction false} ReplayAppend(live: nat, a: seq<Effect>, b: seq<Effect>)
    ensures LiveAfter(live, a + b) == LiveAfter(LiveAfter(live, a), b)
    ensures var p := Peak(live, a); var q := Peak(LiveAfter(live, a), b);
            Peak(live, a + b) == if p >= q then p else q
    decreases |a|
  {
    if a == [] {
      assert a + b == b;
    } else {
      assert (a + b)[1..] == a[1..] + b;
      ReplayAppend(Tick(live, a[0]), a[1..], b);
    }
  }

  lemma {:induction false} ReplayTimerFree(live: nat, trace: seq<Effect>)
    requires TimerFree(trace)
    ensures LiveAfter(live, trace) == live && Peak(live, trace) == live
    decreases |trace|
  {
    if trace != [] {
      ReplayTimerFree(live, trace[1..]);
    }
  }

  lemma ReplayOne(live: nat, e: Effect)
    ensures LiveAfter(live, [e]) == Tick(live, e)
    ensures Peak(live, [e]) == if live >= Tick(live, e) then live else Tick(live, e)
  {
    assert [e][1..] == [];
  }

  /** Rearming cancels the pending timer before it schedules the next, so
      exactly one timer is live afterwards and never two. */
  lemma ReplayRearm(pending: bool)
    ensures var k := if pending then 1 else 0;
            LiveAfter(k, Rearm(pending, true)) == 1 && Peak(k, Rearm(pending, true)) == 1
  {
    ReplayOne(0, SetTimer);
    if pending {
      ReplayOne(1, ClearTimer);
      assert Rearm(pending, true) == [ClearTimer] + [SetTimer];
      ReplayAppend(1, [ClearTimer], [SetTimer]);
    }
  }

  /** An audio buffer cancels the pending timer before it schedules the next. */
  lemma FeedTimers(n: Node, c: Chunk)
    requires n.timerPending ==> n.timeout != Some(0)
    ensures var r := Feed(n, c);
      Peak(Pending(n), r.trace) <= 1 && LiveAfter(Pending(n), r.trace) == Pending(r.node)
  {
    var k := Pending(n);
    var open := if n.session.Active? then [] else [CreateStream];
    var rearm := Rearm(n.timerPending, n.timeout != Some(0));
    assert Feed(n, c).trace == (open + [FeedAudio(c)]) + rearm;
    assert TimerFree(open + [FeedAudio(c)]);
    ReplayTimerFree(k, open + [FeedAudio(c)]);
    ReplayAppend(k, open + [FeedAudio(c)], rearm);
    if n.timeout != Some(0) {
      ReplayRearm(n.timerPending);
    } else {
      ReplayTimerFree(k, rearm);
    }
  }

  /** Cancelling the pending timer, if any, followed by no timer operation. */
  lemma ReplayCancel(pending: bool, after: seq<Effect>)
    requires TimerFree(after)
    ensures var k := if pending then 1 else 0;
            var t := (if pending then [ClearTimer] else []) + after;
            LiveAfter(k, t) == 0 && Peak(k, t) == k
  {
    var k := if pending then 1 else 0;
    var cancel := if pending then [ClearTimer] else [];
    ReplayAppend(k, cancel, after);
    ReplayTimerFree(0, after);
    if pending {
      ReplayOne(1, ClearTimer);
    } else {
      ReplayTimerFree(0, cancel);
    }
  }

  lemma StopTimers(n: Node, eng: Engine)
    requires n.timerPending ==> n.session.Active?
    ensures var r := Stop(n, eng);
      Peak(Pending(n), r.trace) <= 1 && LiveAfter(Pending(n), r.trace) == Pending(r.node)
  {
    if n.session.Active? {
      var fed := n.session.fed;
      var after := [FreeStream] + (if eng.freeStream(fed) then [] else [Error(StreamCleanup)]);
      assert Stop(n, eng).trace == (if n.timerPending then [ClearTimer] else []) + after;
      ReplayCancel(n.timerPending, after);
    } else {
      ReplayTimerFree(Pending(n), Stop(n, eng).trace);
    }
  }

  lemma StopResultTimers(n: Node, eng: Engine)
    requires n.timerPending ==> n.session.Active?
    ensures var r := StopResult(n, eng);
      Peak(Pending(n), r.trace) <= 1 && LiveAfter(Pending(n), r.trace) == Pending(r.node)
  {
    if n.session.Active? {
      var f := Finalize(n, n.session.fed, eng, StreamCleanup);
      assert StopResult(n, eng).trace == (if n.timerPending then [ClearTimer] else []) + f.trace;
      assert TimerFree(f.trace);
      ReplayCancel(n.timerPending, f.trace);
    } else {
      ReplayTimerFree(Pending(n), StopResult(n, eng).trace);
    }
  }

  /** Teardown cancels the pending timer and schedules none, so no timer
      outlives the node. */
  lemma CloseTimers(n: Node, eng: Engine)
    ensures var r := Close(n, eng);
      LiveAfter(Pending(n), r.trace) == 0 && Peak(Pending(n), r.trace) <= 1
  {
    ReplayTeardown(n.timerPending, Close(n, eng).trace);
  }

  /** A trace whose only timer operation is a leading cancel of the one
      pending timer ends with no timer live. */
  lemma ReplayTeardown(pending: bool, t: seq<Effect>)
    requires pending ==> |t| > 0 && t[0] == ClearTimer
    requires forall i | 0 <= i < |t| :: !t[i].SetTimer? && (t[i].ClearTimer? ==> i == 0 && pending)
    ensures var k := if pending then 1 else 0;
            LiveAfter(k, t) == 0 && Peak(k, t) == k
  {
    if pending {
      assert t == [ClearTimer] + t[1..];
      assert TimerFree(t[1..]) by {
        forall i | 0 <= i < |t[1..]|
          ensures !t[1..][i].SetTimer? && !t[1..][i].ClearTimer?
        {
          assert t[1..][i] == t[i + 1];
        }
      }
      ReplayCancel(true, t[1..]);
    } else {
      ReplayTimerFree(0, t);
    }
  }

  /** A string payload at most cancels the pending timer, and only when the
      stream it guarded is dropped or finalized. */
  lemma ControlTimers(n: Node, s: string, eng: Engine)
    requires n.timerPending ==> n.session.Active?
    ensures var r := Control(n, s, eng);
      Peak(Pending(n), r.trace) <= 1 && LiveAfter(Pending(n), r.trace) == Pending(r.node)
  {
    var acted :=
      if s == "stop" then Stop(n, eng)
      else if s == "stop_result" then StopResult(n, eng)
      else if s == "intermediate" then Intermediate(n, eng)
      else Step(n, []);
    assert Control(n, s, eng) == Step(acted.node, acted.trace + [Warn(PayloadIgnored)]);
    assert Peak(Pending(n), acted.trace) <= 1 && LiveAfter(Pending(n), acted.trace) == Pending(acted.node) by {
      if s == "stop" {
        StopTimers(n, eng);
      } else if s == "stop_result" {
        StopResultTimers(n, eng);
      } else {
        assert TimerFree(acted.trace);
        ReplayTimerFree(Pending(n), acted.trace);
      }
    }
    ReplayWarning(Pending(n), acted.trace, PayloadIgnored);
  }

  /** A trailing warning changes nothing about the timers. */
  lemma ReplayWarning(live: nat, trace: seq<Effect>, w: Warning)
    ensures LiveAfter(live, trace + [Warn(w)]) == LiveAfter(live, trace)
    ensures Peak(live, trace + [Warn(w)]) == Peak(live, trace)
  {
    ReplayAppend(live, trace, [Warn(w)]);
    ReplayTimerFree(LiveAfter(live, trace), [Warn(w)]);
    LiveBelowPeak(live, trace);
  }

  /** No replay ends above its own peak. */
  lemma {:induction false} LiveBelowPeak(live: nat, trace: seq<Effect>)
    ensures LiveAfter(live, trace) <= Peak(live, trace)
    decreases |trace|
  {
    if trace != [] {
      LiveBelowPeak(Tick(live, trace[0]), trace[1..]);
    }
  }

  /** The timer discipline of one message: the timer operations it issues
      never leave two timers live at once, and afterwards exactly as many
      timers are live as the node believes pending. */
  lemma InputTimers(n: Node, p: Payload, eng: Engine)
    requires Valid(n)
    ensures var r := Input(n, p, eng);
      Peak(Pending(n), r.trace) <= 1 && LiveAfter(Pending(n), r.trace) == Pending(r.node)
  {
    if n.errorStop {
      ReplayTimerFree(Pending(n), [Warn(NotSetUp)]);
    } else {
      match p
      case Audio(c) => FeedTimers(n, c);
      case Text(s) => ControlTimers(n, s, eng);
      case List(items) =>
        var h := Apply(n.hotwords, items, eng);
        assert TimerFree(h.trace);
        ReplayTimerFree(Pending(n), h.trace);
      case Other => ReplayTimerFree(Pending(n), [Warn(PayloadIgnored)]);
    }
  }

  /** The timer elapsing uses up the one pending timer and arms no other. */
  lemma FireConsumesTimer(n: Node, eng: Engine)
    requires Valid(n) && n.timerPending
    ensures TimerFree(Fire(n, eng).trace) && !Fire(n, eng).node.timerPending
  {
  }

  lemma StopArmsNothing(n: Node, eng: Engine)
    ensures SetTimer !in Stop(n, eng).trace
  {
    if n.session.Active? {
      var fed := n.session.fed;
      var cancel := if n.timerPending then [ClearTimer] else [];
      var rest := [FreeStream] + (if eng.freeStream(fed) then [] else [Error(StreamCleanup)]);
      assert Stop(n, eng).trace == cancel + rest;
      assert SetTimer !in cancel && SetTimer !in rest;
    }
  }

  lemma StopResultArmsNothing(n: Node, eng: Engine)
    ensures SetTimer !in StopResult(n, eng).trace
  {
    if n.session.Active? {
      var cancel := if n.timerPending then [ClearTimer] else [];
      var f := Finalize(n, n.session.fed, eng, StreamCleanup);
      assert StopResult(n, eng).trace == cancel + f.trace;
      assert SetTimer !in cancel && SetTimer !in f.trace;
    }
  }

  /** A control word never schedules a timer. */
  lemma ControlArmsNothing(n: Node, s: string, eng: Engine)
    ensures SetTimer !in Control(n, s, eng).trace
  {
    var acted :=
      if s == "stop" then Stop(n, eng)
      else if s == "stop_result" then StopResult(n, eng)
      else if s == "intermediate" then Intermediate(n, eng)
      else Step(n, []);
    assert SetTimer !in acted.trace by {
      if s == "stop" {
        StopArmsNothing(n, eng);
      } else if s == "stop_result" {
        StopResultArmsNothing(n, eng);
      } else if s == "intermediate" {
        assert SetTimer !in Intermediate(n, eng).trace;
      }
    }
    assert Control(n, s, eng).trace == acted.trace + [Warn(PayloadIgnored)];
  }

  /** With a timeout of 0 no timer is ever armed, so nothing is finalized
      unless asked for. */
  lemma {:induction false} ZeroTimeoutNeverArms(n: Node, evs: seq<Event>, eng: Engine)
    requires Valid(n) && n.timeout == Some(0)
    ensures !Run(n, evs, eng).node.timerPending
    ensures SetTimer !in Run(n, evs, eng).trace
    decreases |evs|
  {
    if evs != [] {
      var s := Handle(n, evs[0], eng);
      HandleKeepsValid(n, evs[0], eng);
      if evs[0].Message? && !n.errorStop && evs[0].payload.Text? {
        ControlArmsNothing(n, evs[0].payload.text, eng);
      }
      assert SetTimer !in s.trace;
      ZeroTimeoutNeverArms(s.node, evs[1..], eng);
    }
  }

  /** The timeout text "0" (or any run of zeros) is what switches automatic
      finalizing off. */
  lemma ZeroTextDisablesFinalize(c: Config, finalTimeout: string, present: string -> bool, throws: Effect -> bool)
    requires IsInteger(finalTimeout)
    ensures Start(c, finalTimeout, present, throws).node.timeout == Some(0)
        <==> forall i | 0 <= i < |finalTimeout| :: finalTimeout[i] == '0'
  {
    ValueZeroIffZeros(finalTimeout);
  }

  // ---------------------------------------------------------------------------
  // Audio accumulates in the stream

  /** One audio message per chunk, in order. */
  function Feeds(cs: seq<Chunk>): (evs: seq<Event>)
  {
    if cs == [] then [] else [Message(Audio(cs[0]))] + Feeds(cs[1..])
  }

  /** A handler that treats every audio message on a running node as a feed,
      as `Handle` does. */
  ghost predicate FeedsAudio(handle: (Node, Event) -> Step) {
    forall m: Node, c: Chunk :: !m.errorStop ==> handle(m, Message(Audio(c))) == Feed(m, c)
  }

  lemma HandleFeedsAudio(eng: Engine)
    ensures FeedsAudio((m, ev) => Handle(m, ev, eng))
  {
  }

  /** The first of a run of audio messages is handled as a feed, for any
      handler that feeds audio. */
  lemma ReplayFeedsHead(n: Node, cs: seq<Chunk>, handle: (Node, Event) -> Step)
    requires !n.errorStop && cs != [] && FeedsAudio(handle)
    ensures var s := Feed(n, cs[0]);
            var rest := Replay(s.node, Feeds(cs[1..]), handle);
            Replay(n, Feeds(cs), handle) == Step(rest.node, s.trace + rest.trace)
  {
    var evs := Feeds(cs);
    assert evs[0] == Message(Audio(cs[0])) && evs[1..] == Feeds(cs[1..]);
  }

  /** Appending the head of a sequence and then its tail appends all of it. */
  lemma AppendHead<T>(a: seq<T>, cs: seq<T>)
    requires cs != []
    ensures (a + [cs[0]]) + cs[1..] == a + cs
  {
    assert cs == [cs[0]] + cs[1..];
  }

  lemma {:induction false} ReplayFeedsAccumulate(n: Node, cs: seq<Chunk>, handle: (Node, Event) -> Step)
    requires !n.errorStop && FeedsAudio(handle)
    ensures var r := Replay(n, Feeds(cs), handle);
      && Fed(r.node.session) == Fed(n.session) + cs
      && (cs != [] ==> r.node.session.Active?)
      && !r.node.errorStop
    decreases |cs|
  {
    if cs != [] {
      var s := Feed(n, cs[0]);
      var m := Replay(s.node, Feeds(cs[1..]), handle).node;
      assert Replay(n, Feeds(cs), handle).node == m by {
        ReplayFeedsHead(n, cs, handle);
      }
      assert Fed(m.session) == Fed(s.node.session) + cs[1..] && m.session.Active? && !m.errorStop by {
        ReplayFeedsAccumulate(s.node, cs[1..], handle);
      }
      assert Fed(s.node.session) == Fed(n.session) + [cs[0]];
      AppendHead(Fed(n.session), cs);
    }
  }

  lemma {:induction false} ReplayFeedsQuiet(n: Node, cs: seq<Chunk>, handle: (Node, Event) -> Step)
    requires !n.errorStop && FeedsAudio(handle)
    ensures Sends(Replay(n, Feeds(cs), handle).trace) == []
    decreases |cs|
  {
    if cs != [] {
      var s := Feed(n, cs[0]);
      ReplayFeedsHead(n, cs, handle);
      ReplayFeedsAccumulate(s.node, cs[1..], handle);
      ReplayFeedsQuiet(s.node, cs[1..], handle);
      SendsOfSendFree(s.trace);
      SendsAppend(s.trace, Replay(s.node, Feeds(cs[1..]), handle).trace);
    }
  }

  /** Feeding chunks one after another appends them, in order, to the audio
      the stream has consumed, creating the stream if there was none. */
  lemma FeedsAccumulate(n: Node, cs: seq<Chunk>, eng: Engine)
    requires !n.errorStop
    ensures var r := Run(n, Feeds(cs), eng);
      && Fed(r.node.session) == Fed(n.session) + cs
      && (cs != [] ==> r.node.session.Active?)
      && !r.node.errorStop
  {
    HandleFeedsAudio(eng);
    ReplayFeedsAccumulate(n, cs, (m, ev) => Handle(m, ev, eng));
  }

  /** Feeding audio never sends a message. */
  lemma FeedsSendNothing(n: Node, cs: seq<Chunk>, eng: Engine)
    requires !n.errorStop
    ensures Sends(Run(n, Feeds(cs), eng).trace) == []
  {
    HandleFeedsAudio(eng);
    ReplayFeedsQuiet(n, cs, (m, ev) => Handle(m, ev, eng));
  }

  // ---------------------------------------------------------------------------
  // End-to-end scenarios

  /** Feeding chunks and then peeking sends the partial transcript of
      exactly those chunks and leaves the stream open. */
  lemma FeedThenPeek(n: Node, cs: seq<Chunk>, eng: Engine)
    requires !n.errorStop && n.session.Idle? && cs != []
    ensures var r := Run(n, Feeds(cs) + [Message(Text("intermediate"))], eng);
      && Sends(r.trace) == [Transcript(eng.intermediate(cs), None)]
      && r.node.session == Active(cs) && !r.node.errorStop
  {
    var peek := Message(Text("intermediate"));
    var r1 := Run(n, Feeds(cs), eng);
    FeedsAccumulate(n, cs, eng);
    FeedsSendNothing(n, cs, eng);
    assert r1.node.session == Active(cs);
    var r2 := Handle(r1.node, peek, eng);
    RunOne(r1.node, peek, eng);
    assert r2 == Control(r1.node, "intermediate", eng);
    ControlEffects(r1.node, "intermediate", eng);
    RunAppend(n, Feeds(cs), [peek], eng);
    SendsAppend(r1.trace, r2.trace);
  }

  /** Feeding chunks into an open stream and then asking for the result
      sends the final transcript of everything fed and closes the stream. */
  lemma FeedThenFinish(n: Node, cs: seq<Chunk>, eng: Engine)
    requires !n.errorStop && n.session.Active?
    requires eng.finish(n.session.fed + cs).Some?
    ensures var r := Run(n, Feeds(cs) + [Message(Text("stop_result"))], eng);
      && Sends(r.trace) == [Transcript(eng.finish(n.session.fed + cs).value, None)]
      && r.node.session == Idle && !r.node.timerPending
  {
    var finish := Message(Text("stop_result"));
    var r1 := Run(n, Feeds(cs), eng);
    FeedsAccumulate(n, cs, eng);
    FeedsSendNothing(n, cs, eng);
    assert r1.node.session == Active(n.session.fed + cs);
    var r2 := Handle(r1.node, finish, eng);
    RunOne(r1.node, finish, eng);
    assert r2 == Control(r1.node, "stop_result", eng);
    ControlEffects(r1.node, "stop_result", eng);
    RunAppend(n, Feeds(cs), [finish], eng);
    SendsAppend(r1.trace, r2.trace);
  }

  /** Feeding A and B, peeking, feeding C and asking for the result sends
      exactly two transcripts: the partial one of A+B, then the final one of
      A+B+C; the node ends with no stream and no timer. */
  lemma FeedPeekFeedFinish(n: Node, a: Chunk, b: Chunk, c: Chunk, eng: Engine)
    requires !n.errorStop && n.session.Idle?
    requires eng.finish([a, b, c]).Some?
    ensures var r := Run(n, Feeds([a, b]) + [Message(Text("intermediate"))] + Feeds([c])
                            + [Message(Text("stop_result"))], eng);
      && Sends(r.trace) == [Transcript(eng.intermediate([a, b]), None),
                            Transcript(eng.finish([a, b, c]).value, None)]
      && r.node.session == Idle
      && !r.node.timerPending
  {
    var first := Feeds([a, b]) + [Message(Text("intermediate"))];
    var second := Feeds([c]) + [Message(Text("stop_result"))];
    assert first + Feeds([c]) + [Message(Text("stop_result"))] == first + second;
    var r1 := Run(n, first, eng);
    FeedThenPeek(n, [a, b], eng);
    assert [a, b] + [c] == [a, b, c];
    FeedThenFinish(r1.node, [c], eng);
    RunAppend(n, first, second, eng);
    SendsAppend(r1.trace, Run(r1.node, second, eng).trace);
  }

  /** Two events are handled one after the other. */
  lemma ReplayPair(n: Node, e1: Event, e2: Event, handle: (Node, Event) -> Step)
    ensures var s1 := handle(n, e1);
            var s2 := handle(s1.node, e2);
            Replay(n, [e1, e2], handle) == Step(s2.node, s1.trace + s2.trace)
  {
    var s1 := handle(n, e1);
    var s2 := handle(s1.node, e2);
    assert Replay(s1.node, [e2], handle) == Step(s2.node, s2.trace) by {
      assert [e2][1..] == [];
      assert Replay(s2.node, [], handle) == Step(s2.node, []);
      assert s2.trace + [] == s2.trace;
    }
    assert [e1, e2][1..] == [e2];
  }

  /** Audio on a running node with no stream opens one holding just that
      chunk and arms the timer, sending nothing. */
  lemma FeedOpens(n: Node, a: Chunk)
    requires !n.errorStop && n.session.Idle? && n.timeout != Some(0)
    ensures var s := Feed(n, a);
      s.node.session == Active([a]) && s.node.timerPending && !s.node.errorStop && Sends(s.trace) == []
  {
    assert Fed(n.session) + [a] == [a];
    SendsOfSendFree(Feed(n, a).trace);
  }

  /** Audio followed by the timer is a feed followed by a fire. */
  lemma RunFeedFire(n: Node, a: Chunk, eng: Engine)
    requires !n.errorStop
    ensures var s1 := Feed(n, a);
            var s2 := Fire(s1.node, eng);
            Run(n, [Message(Audio(a)), TimerFires], eng) == Step(s2.node, s1.trace + s2.trace)
  {
    var s1 := Feed(n, a);
    ReplayPair(n, Message(Audio(a)), TimerFires, (m, ev) => Handle(m, ev, eng));
    assert Handle(n, Message(Audio(a)), eng) == s1;
    assert Handle(s1.node, TimerFires, eng) == Fire(s1.node, eng);
  }

  /** Feeding A and letting the timer elapse sends exactly one transcript,
      the final one of A, with no "stop_result", and ends with no stream. */
  lemma TimeoutFinalizes(n: Node, a: Chunk, eng: Engine)
    requires !n.errorStop && n.session.Idle? && n.timeout != Some(0)
    requires eng.finish([a]).Some?
    ensures var r := Run(n, [Message(Audio(a)), TimerFires], eng);
      && Sends(r.trace) == [Transcript(eng.finish([a]).value, None)]
      && r.node.session == Idle
      && !r.node.timerPending
  {
    var s1 := Feed(n, a);
    var s2 := Fire(s1.node, eng);
    RunFeedFire(n, a, eng);
    FeedOpens(n, a);
    SendsAppend(s1.trace, s2.trace);
  }

  /** The three control words with no stream only warn: nothing is sent and
      the node is unchanged. */
  lemma IdleControlOnlyWarns(n: Node, s: string, eng: Engine)
    requires !n.errorStop && n.session.Idle?
    requires s in {"stop", "stop_result", "intermediate"}
    ensures Input(n, Text(s), eng) == Step(n, [Warn(NoInference), Warn(PayloadIgnored)])
  {
  }

  /** Closing twice after a clean teardown frees nothing the second time:
      the stream and the model are each released exactly once. */
  lemma CloseTwiceFreesOnce(n: Node, eng: Engine)
    requires eng.freeModel && (n.session.Active? ==> eng.freeStream(n.session.fed))
    ensures var again := Close(Close(n, eng).node, eng);
      FreeStream !in again.trace && FreeModel !in again.trace
  {
    var once := Close(n, eng);
    CloseReleasesOnce(once.node, eng);
  }
}

=== FILE: wav.dfy ===
/** The file node: each message carries one complete WAV buffer, which is
    probed for its format and, when it is 16-bit, 16 kHz mono, transcribed in
    one native call. The node keeps no audio between messages; its only state
    is the start-up gate, the model handle and the hotword registry. The format
    probe is a function from buffers to what it reports.
 */
module Wav {
  import opened Base
  import opened Hotwords
  import opened Startup

  datatype Node = Node(errorStop: bool, modelLoaded: bool, hotwords: seq<string>)

  datatype Step = Step(node: Node, trace: seq<Effect>)

  /** The invariant every reachable node state keeps. */
  ghost predicate Valid(n: Node) {
    && (!n.errorStop ==> n.modelLoaded)
    && NoDups(n.hotwords)
  }

  /** Start-up: the path checks, then the decoder. */
  function Start(c: Config, present: string -> bool, throws: Effect -> bool): (r: Step)
    ensures Valid(r.node) && r.node.hotwords == []
    ensures r.node.errorStop <==>
      || !present(c.modelPath)
      || (!present(c.scorerPath) && !ScorerDisabled(c))
      || !Completes(Plan(c), throws)
    ensures r.node.errorStop ==> exists i | 0 <= i < |r.trace| :: r.trace[i].Error?
    // the model is constructed only past the path checks, and is held unless that throws
    ensures r.node.modelLoaded <==> PathErrors(c, present) == [] && !throws(LoadModel(c.modelPath))
    ensures !present(c.modelPath) || (!present(c.scorerPath) && !ScorerDisabled(c)) ==>
      forall i | 0 <= i < |r.trace| :: !IsNative(r.trace[i])
  {
    var gate := PathErrors(c, present);
    var b := BootDecoder(c, gate, throws);
    assert b.errorStop ==> b.trace[|b.trace| - 1].Error?;
    Step(Node(b.errorStop, b.modelLoaded, []), b.trace)
  }

  /** What the format probe reports about a buffer: its format, or that the
      buffer could not be parsed as WAV. */
  datatype Probe =
    | Unreadable
    | Format(bitsPerSample: int, sampleRate: int, channels: int, duration: real)

  /** Every requirement the buffer breaks, in the order the node checks them.
      An unreadable buffer breaks only the first. */
  function Violations(p: Probe): (faults: seq<Fault>) {
    if p.Unreadable? then [ProbeFailed]
    else
      (if p.bitsPerSample != 16 then [Not16Bit] else [])
      + (if p.sampleRate != 16000 then [Not16kHz] else [])
      + (if p.channels != 1 then [NotMono] else [])
  }

  /** The format checks: the first failing one is reported and stops the
      message; otherwise the audio duration goes on into the result. */
  function Gate(p: Probe): (r: Result<real, Fault>)
    ensures r.Success? <==>
      p.Format? && p.bitsPerSample == 16 && p.sampleRate == 16000 && p.channels == 1
    ensures r.Success? ==> r.value == p.duration
  {
    if p.Unreadable? then Failure(ProbeFailed)
    else if p.bitsPerSample != 16 then Failure(Not16Bit)
    else if p.sampleRate != 16000 then Failure(Not16kHz)
    else if p.channels != 1 then Failure(NotMono)
    else Success(p.duration)
  }

  /** The gate reports the first requirement broken, and passes exactly when
      none is. */
  lemma GateReportsFirstViolation(p: Probe)
    ensures Gate(p).Success? <==> Violations(p) == []
    ensures Gate(p).Failure? ==> Gate(p).error == Violations(p)[0]
  {
  }

  /** One WAV buffer: probed, checked, and transcribed only if every check
      passes, the result carrying the duration the probe reported. */
  function Transcribe(buffer: Chunk, p: Probe, eng: Engine): (r: seq<Effect>)
    ensures Stt(buffer) in r <==> Violations(p) == []
    ensures Violations(p) == [] ==>
      Sends(r) == [Transcript(eng.stt(buffer), Some(p.duration))]
    ensures Violations(p) != [] ==> r == [Error(Violations(p)[0])]
  {
    GateReportsFirstViolation(p);
    match Gate(p)
    case Failure(f) => [Error(f)]
    case Success(duration) => [Stt(buffer), Send(Transcript(eng.stt(buffer), Some(duration)))]
  }

  /** One input message. */
  function Input(n: Node, m: Payload, probe: Chunk -> Probe, eng: Engine): (r: Step)
    // a node stopped at start-up only warns
    ensures n.errorStop ==> r == Step(n, [Warn(NotSetUp)])
    // only a hotword list changes the node, and only its registry
    ensures !(m.List? && !n.errorStop) ==> r.node == n
    ensures !n.errorStop && m.List? ==>
      && r.node == n.(hotwords := Apply(n.hotwords, m.items, eng).tracked)
      && Sends(r.trace) == []
    // anything other than a buffer or a list is ignored with a warning
    ensures !n.errorStop && (m.Text? || m.Other?) ==> r.trace == [Warn(PayloadIgnored)]
    // a buffer is transcribed exactly when its format passes every check
    ensures !n.errorStop && m.Audio? ==>
      && (Stt(m.chunk) in r.trace <==> Violations(probe(m.chunk)) == [])
      && |Sends(r.trace)| == (if Violations(probe(m.chunk)) == [] then 1 else 0)
  {
    if n.errorStop then Step(n, [Warn(NotSetUp)])
    else match m
      case Audio(buffer) => Step(n, Transcribe(buffer, probe(buffer), eng))
      case List(items) =>
        var h := Apply(n.hotwords, items, eng);
        SendsOfSendFree(h.trace);
        Step(n.(hotwords := h.tracked), h.trace)
      case Text(_) => Step(n, [Warn(PayloadIgnored)])
      case Other => Step(n, [Warn(PayloadIgnored)])
  }

  /** Messages handled one at a time, in arrival order. */
  function Run(n: Node, ms: seq<Payload>, probe: Chunk -> Probe, eng: Engine): (r: Step)
    decreases |ms|
  {
    if ms == [] then Step(n, [])
    else
      var s := Input(n, ms[0], probe, eng);
      var rest := Run(s.node, ms[1..], probe, eng);
      Step(rest.node, s.trace + rest.trace)
  }

  /** Teardown: the model is freed if present; a failure is logged and keeps
      the handle. */
  function Close(n: Node, eng: Engine): (r: Step)
    ensures r.node.modelLoaded <==> n.modelLoaded && !eng.freeModel
    ensures r.node.(modelLoaded := n.modelLoaded) == n
    ensures Count(FreeModel, r.trace) == (if n.modelLoaded then 1 else 0)
    // freeing the model is the only native call
    ensures Natives(r.trace) == if n.modelLoaded then [FreeModel] else []
    ensures Sends(r.trace) == []
  {
    var model := ReleaseModel(n.modelLoaded, eng.freeModel);
    SendsOfSendFree(model.1);
    Step(n.(modelLoaded := model.0), model.1)
  }

  // ---------------------------------------------------------------------------
  // Properties over message sequences

  lemma {:induction false} RunKeepsValid(n: Node, ms: seq<Payload>, probe: Chunk -> Probe, eng: Engine)
    requires Valid(n)
    ensures Valid(Run(n, ms, probe, eng).node)
    decreases |ms|
  {
    if ms != [] {
      RunKeepsValid(Input(n, ms[0], probe, eng).node, ms[1..], probe, eng);
    }
  }

  /** A node stopped at start-up stays as it is and only ever warns. */
  lemma {:induction false} StoppedNodeOnlyWarns(n: Node, ms: seq<Payload>, probe: Chunk -> Probe, eng: Engine)
    requires n.errorStop
    ensures Run(n, ms, probe, eng).node == n
    ensures OnlyWarnings(Run(n, ms, probe, eng).trace)
    decreases |ms|
  {
    if ms != [] {
      StoppedNodeOnlyWarns(n, ms[1..], probe, eng);
      var rest := Run(n, ms[1..], probe, eng).trace;
      assert Run(n, ms, probe, eng).trace == [Warn(NotSetUp)] + rest;
    }
  }

  /** How many of the messages are buffers whose format passes every check. */
  function Accepted(ms: seq<Payload>, probe: Chunk -> Probe): (k: nat) {
    if ms == [] then 0
    else (if ms[0].Audio? && Violations(probe(ms[0].chunk)) == [] then 1 else 0)
         + Accepted(ms[1..], probe)
  }

  /** A working node sends exactly one result per acceptable buffer, and no
      other message. */
  lemma {:induction false} OneResultPerAcceptedBuffer(n: Node, ms: seq<Payload>, probe: Chunk -> Probe, eng: Engine)
    requires !n.errorStop
    ensures |Sends(Run(n, ms, probe, eng).trace)| == Accepted(ms, probe)
    decreases |ms|
  {
    if ms != [] {
      var s := Input(n, ms[0], probe, eng);
      OneResultPerAcceptedBuffer(s.node, ms[1..], probe, eng);
      SendsAppend(s.trace, Run(s.node, ms[1..], probe, eng).trace);
      if ms[0].Text? || ms[0].Other? {
        SendsOfSendFree(s.trace);
      }
    }
  }

  /** Teardown never decodes: there is no `stt` call in it, before or after
      the free. */
  lemma CloseDecodesNothing(n: Node, eng: Engine)
    ensures forall e | e in Close(n, eng).trace :: !e.Stt?
  {
    var t := Close(n, eng).trace;
    NativesMembers(t);
    assert forall e | e in Natives(t) :: e == FreeModel;
  }

  /** Closing twice after a clean teardown frees the model once. */
  lemma CloseTwiceFreesOnce(n: Node, eng: Engine)
    requires eng.freeModel
    ensures var once := Close(n, eng);
            var again := Close(once.node, eng);
            Count(FreeModel, once.trace + again.trace) == (if n.modelLoaded then 1 else 0)
  {
    var once := Close(n, eng);
    CountAppend(FreeModel, once.trace, Close(once.node, eng).trace);
  }
}
